=== FILE: README.md ===
# QuizMaster core, modelled in Dafny

QuizMaster is a quiz web application. It has an Express/Prisma server and a React client.
This project models the parts of it that decide something, as pure Dafny functions over
immutable values, and proves what they promise.

Server side:
- **Sign-up and sign-in**: the duplicate-email refusal and the password-free user in the response.
- **Authentication middleware**: where the token comes from, the 401 exits and the admin gate.
- **Quiz creation**: the three 400 checks, then one nested write with fresh ids.
- **Quiz listing**: an optional case-insensitive search over name, description and tags.
- **Attempt lifecycle**: start returns or creates an IN_PROGRESS attempt; submit replaces the
  answer rows, scores +10/-4 and closes the attempt; the review rebuilds the per-answer entries
  and the percentage.
- **Error path**: `errorHandler` plus the single error-envelope middleware.

Client side:
- **Authoring form**: the edits it offers keep every question at two or more options with
  exactly one correct.
- **Attempt page**: its answer map, the autosave and submit bodies, the resume position and
  the Prev/Next bounds.
- **Result page**: the chart datasets and the option colours.
- **Quiz card**: the time estimate.

The database is a value (`Store.Db`):
- users are a sequence, searched first-match like `findUnique`;
- quizzes, questions, options and attempts are maps;
- every generated id comes from one counter, `nextId`;
- attempts are keyed by (user, quiz), the pair the handlers look them up by.

`Store.Wf` states the integrity the schema's foreign keys give:
- every quiz is stored under its own id;
- every attempt's quiz exists;
- every stored answer's question and option exist.

Each write is shown to keep `Wf`.

Side effects enter as parameters or outcomes:
- bcrypt hashing and comparison, and JWT signing and verification, are uninterpreted function
  parameters (`hash`, `compare`, `sign`, `verify`);
- a handler returns the new store together with `Ok(body)` or `Err(HttpError)`.

Behaviours of the implementation the model follows:
- The attempt review lists one entry per *stored* answer, not one per question of the quiz.
  Its total is the attempt's stored score. Its percentage divides by the number of stored
  answers, so with no stored answers it is not a number; the model writes that as `None`.
- `startQuizAttempt` answers `{quiz, attempt}` only. The attempt page reads `savedAnswers` and
  `attemptId` from that body, which are never there, so from a fresh start the page has no
  attempt id and autosave never sends. Each side is modelled against its own code.
- Every review entry the server builds has a non-null `selectedOption`. So on the result page,
  the "Unattempted" dataset and the yellow style are dead for real data
  (`ResultView.ServerEntriesAreAttempted`).
- A submitted answer whose option exists but whose question does not makes the answer insert
  fail the `Answer.questionId` foreign key. The submit then answers 500 and keeps the rows
  written so far, and the attempt stays IN_PROGRESS. `Attempts.SubmitQuizAttempt` models that
  partial write.

## Model

| member | source | states |
|---|---|---|
| Http.ErrorHandler | server/src/utils/errorHandler.utils.ts:12-16 | the error keeps the status and message it was given, with no range check |
| Http.Respond | server/src/app.ts:28-40 | an error becomes a failure envelope whose body status equals the HTTP status exactly when that status is a three-digit code, otherwise Express's own 500 page; a zero status becomes 500 and an empty message the generic one, so neither is ever empty |
| Http.DefaultErrorResponse | server/src/app.ts:31-37 | `errorHandler()` goes out as 500 "Internal Server Error" |
| Http.ExplicitErrorResponse | server/src/app.ts:31-37 | a non-zero three-digit status and non-empty message go out unchanged; any other non-zero status gives Express's 500 page |
| Http.EnvelopeIsFixedPoint | server/src/app.ts:31-37 | re-raising an envelope's own status and message reproduces the same response |
| Store.FindUser | server/src/controllers/auth.controller.ts:16 | finds a user with the given email or id exactly when one exists, and then the first such row |
| Accounts.WithoutPassword | server/src/controllers/auth.controller.ts:36 | the user sent back has the row's id, name, email and role |
| Accounts.PublicUserIgnoresPassword | server/src/controllers/auth.controller.ts:76 | two rows give the same public user exactly when they differ at most in the password |
| Accounts.Signup | server/src/controllers/auth.controller.ts:12-48 | refused with 401 and no write exactly when the email is taken; otherwise one USER row holding the hashed password is appended with a fresh id, nothing else changes, and the reply carries that row without its password and a token for its id |
| Accounts.Signin | server/src/controllers/auth.controller.ts:50-87 | an empty email or password is a 400; success exactly when the email is found and the password matches its hash; every other failure is the same 401; a success returns a stored user with that email and a token for its id |
| Accounts.SigninFailuresIndistinguishable | server/src/controllers/auth.controller.ts:63-72 | an unknown email and a wrong password give the identical response |
| Accounts.SignupThenSignin | server/src/controllers/auth.controller.ts:12-87 | signing in right after signing up with the same password returns the same user and a token signed for the same id |
| Accounts.SignupKeepsEmailsUnique | server/src/controllers/auth.controller.ts:16-32 | sign-up never creates a second row with a taken email |
| Accounts.SignupKeepsWf | server/src/controllers/auth.controller.ts:26-32 | sign-up keeps the store's integrity |
| Guard.HeaderToken | server/src/middlewares/auth.middleware.ts:9-10 | a header yields a token exactly when it starts with "Bearer "; the token is the space-free text after the prefix, up to the next space or the end |
| Guard.GetToken | server/src/middlewares/auth.middleware.ts:7-12 | a non-empty cookie token wins; otherwise the header token |
| Guard.VerifyJwtToken | server/src/middlewares/auth.middleware.ts:15-48 | a missing token is 401 first; success exactly when the token verifies to an object with an id of a stored user, who is returned; every failure is a 401 |
| Guard.IsAdmin | server/src/middlewares/auth.middleware.ts:50-56 | passes exactly a present ADMIN user; otherwise 403 "Admin access only!" |
| Guard.MissingTokenRefusedFirst | server/src/middlewares/auth.middleware.ts:16-19 | with no token the outcome depends neither on the verifier nor on the store |
| Guard.CookieWins | server/src/middlewares/auth.middleware.ts:8-11 | a non-empty cookie makes the header irrelevant |
| Guard.AdminRouteAccess | server/src/middlewares/auth.middleware.ts:15-56 | an admin route admits a request exactly when its token decodes to the id of a stored ADMIN user |
| Catalog.CountCorrect | server/src/controllers/quiz.controller.ts:32 | the count is the number of positions whose option is marked correct, so at most the option count and zero exactly when none is correct |
| Catalog.ExactlyOneCorrect | server/src/controllers/quiz.controller.ts:32-33 | the count is one exactly when a single index is marked correct and every other is not |
| Catalog.ReviewOf | server/src/controllers/quiz.controller.ts:54 | an empty review is stored as null and any other review as it is |
| Catalog.OptionRows | server/src/controllers/quiz.controller.ts:55-60 | one row per submitted option, in order, with its text and flag, under consecutive fresh ids |
| Catalog.QuestionRows | server/src/controllers/quiz.controller.ts:51-62 | one row per submitted question, in order, with its text, review and options, all ids inside the range the write consumes |
| Catalog.QuestionRowsFresh | server/src/controllers/quiz.controller.ts:51-62 | the nested write never uses a question or option id twice |
| Catalog.QuestionsIndexed | server/src/controllers/quiz.controller.ts:51-62 | each written question row can be found under its own id |
| Catalog.OptionsIndexed | server/src/controllers/quiz.controller.ts:55-60 | each written option row can be found under its own id |
| Catalog.InsertQuizQuestions | server/src/controllers/quiz.controller.ts:44-62 | the question table gains exactly the quiz's rows, under fresh ids |
| Catalog.InsertQuizOptions | server/src/controllers/quiz.controller.ts:44-62 | the option table gains exactly the quiz's option rows, under fresh ids |
| Catalog.InsertQuizKeepsRows | server/src/controllers/quiz.controller.ts:44-62 | on a well-formed store no existing question or option row is overwritten |
| Catalog.ValidateQuiz | server/src/controllers/quiz.controller.ts:23-41 | accepts exactly when name and topic are non-empty and there is at least one question, each with at least two options and exactly one correct; each refusal carries its own 400 message, in the source's order |
| Catalog.InsertQuizKeepsWf | server/src/controllers/quiz.controller.ts:44-78 | writing a quiz whose ids are all fresh keeps the store's integrity |
| Catalog.CreateQuiz | server/src/controllers/quiz.controller.ts:20-91 | a validation error is returned with no write; a missing tags array is a 500 with no write; otherwise the quiz gets the next id and the input's fields, questions and tags; the question and option tables gain exactly its rows under fresh ids and keep every existing row; nothing else but the quiz and tag tables changes, and integrity is kept |
| Catalog.CreatorName | server/src/controllers/quiz.controller.ts:135-143 | the name of the first user with the creator's id, or none exactly when no user has it |
| Catalog.Summarize | server/src/controllers/quiz.controller.ts:135-143 | a summary carries its quiz's id, name, topic and tags, the creator's name and the number of questions |
| Catalog.SummaryHidesQuestions | server/src/controllers/quiz.controller.ts:135-143 | replacing a quiz's questions by as many others leaves its summary unchanged |
| Catalog.ListQuizzes | server/src/controllers/quiz.controller.ts:94-148 | without a non-empty term every quiz is listed; with one, exactly the quizzes whose name, description or some tag contains it ignoring case |
| Catalog.TagMatchIsListed | server/src/controllers/quiz.controller.ts:114-123 | a matching tag alone gets a quiz listed |
| Attempts.ViewOf | server/src/controllers/quiz.controller.ts:161-178 | the quiz is sent with its fields, tags, question ids and texts and option ids and texts, in order |
| Attempts.ViewHidesAnswers | server/src/controllers/quiz.controller.ts:161-178 | quizzes differing only in reviews and correct flags are sent identically |
| Attempts.RowOf | server/src/controllers/quiz.controller.ts:182-199 | the attempt sent back is the stored row's id, user, quiz, status and score, without its answers |
| Attempts.StartQuizAttempt | server/src/controllers/quiz.controller.ts:155-209 | unknown quiz 404 and COMPLETED 403, both without writes; an IN_PROGRESS attempt's row is returned as is; otherwise exactly one fresh IN_PROGRESS attempt of this user and quiz with score 0 and no answers is added and its row returned; integrity is kept |
| Attempts.StartIsIdempotent | server/src/controllers/quiz.controller.ts:182-199 | starting again after a successful start returns the same attempt and writes nothing |
| Attempts.Resolved | server/src/controllers/quiz.controller.ts:240-253 | the rows written are submitted answers whose option exists, and every submitted answer whose option exists is written |
| Attempts.ResolvedDistributes | server/src/controllers/quiz.controller.ts:240-253 | the rows are written in submission order: two runs of answers give the first run's rows followed by the second's |
| Attempts.ScoreBreakdown | server/src/controllers/quiz.controller.ts:255 | the score is 10 per correct minus 4 per incorrect answer, hence within [-4n, 10n] |
| Attempts.ResolvedOfPrefix | server/src/controllers/quiz.controller.ts:240-256 | the rows written for a prefix of the answers are a prefix of those written for all |
| Attempts.WriteAnswers | server/src/controllers/quiz.controller.ts:238-256 | the loop fails exactly when some written row's question is missing; otherwise it writes exactly the resolved rows with their summed points, and on failure the rows before the first failing answer |
| Attempts.StopIsFailure | server/src/controllers/quiz.controller.ts:241-253 | an answer with an existing option and a missing question makes the whole write fail there |
| Attempts.SubmitQuizAttempt | server/src/controllers/quiz.controller.ts:211-276 | a missing or empty list 400, no attempt 404, COMPLETED 403, all without writes; otherwise the attempt is closed with exactly the resolved rows and their score; an answer whose question is missing gives a 500 with the earlier rows written and the attempt still open |
| Attempts.ReplacingAnswersKeepsWf | server/src/controllers/quiz.controller.ts:232-264 | replacing an attempt's rows by resolving rows, closed or not, keeps integrity |
| Attempts.SubmitKeepsWf | server/src/controllers/quiz.controller.ts:232-264 | both states a submit can leave keep integrity |
| Attempts.NoStartAfterSubmit | server/src/controllers/quiz.controller.ts:186-188 | once submitted, the attempt is COMPLETED and a new start is a 403 with no write |
| Attempts.FirstCorrect | server/src/controllers/quiz.controller.ts:312 | returns the first correct option, and none exactly when no option is correct |
| Attempts.CorrectText | server/src/controllers/quiz.controller.ts:312-319 | none exactly when no option is correct, otherwise the text of the first correct option |
| Attempts.Evaluate | server/src/controllers/quiz.controller.ts:310-324 | an entry carries the answer's question id, the question's text, review and options, the selected option's text and correctness, the question's correct text, and +10 exactly when correct, -4 exactly when not |
| Attempts.Percentage | server/src/controllers/quiz.controller.ts:326 | none exactly when no answer is stored; otherwise the value times ten points per answer is the score times 100 |
| Attempts.GetAttemptDetails | server/src/controllers/quiz.controller.ts:278-338 | no attempt is a 404; otherwise one entry per stored answer with the selected option's text and correctness, impact +10 exactly when correct and -4 exactly when not, the question's first correct text, text, review and options (each entry is `Evaluate` of its stored answer), the stored score and the percentage over the stored answers |
| Attempts.EvaluatedSum | server/src/controllers/quiz.controller.ts:310-331 | the entries' impacts add up to the stored rows' points |
| Attempts.ReviewAfterSubmit | server/src/controllers/quiz.controller.ts:326-333 | right after a submit, the review's total equals the submitted score and the sum of its entries, and the percentage lies in [-40, 100] |
| Attempts.PercentageBounds | server/src/controllers/quiz.controller.ts:326 | a score within [-4k, 10k] over k > 0 answers gives a percentage in [-40, 100] |
| Text.Split | server/src/middlewares/auth.middleware.ts:10 | one more piece than separators, none containing the separator; the first is the longest separator-free prefix |
| Text.Trim | client/src/pages/CreateQuiz.tsx:76 | the result is a piece of the input with only whitespace cut on either side |
| Text.Contains | client/src/pages/StartQuiz.tsx:42 | true exactly when the text occurs in the string |
| Text.ContainsIgnoringCase | server/src/controllers/quiz.controller.ts:103-122 | true exactly when the lower-cased text occurs in the lower-cased string |
| QuizForm.InitialFormHolds | client/src/pages/CreateQuiz.tsx:8-23 | the initial form has one question with two options and exactly one correct |
| QuizForm.HandleChange | client/src/pages/CreateQuiz.tsx:25-27 | one top-level field gets the value; the other fields and the questions are untouched |
| QuizForm.HandleQuestionChange | client/src/pages/CreateQuiz.tsx:29-33 | only the named field of the indexed question changes |
| QuizForm.HandleOptionChange | client/src/pages/CreateQuiz.tsx:35-45 | "isCorrect" makes the chosen option the only correct one and keeps all texts; "text" changes only that option's text and keeps all flags; other questions are untouched |
| QuizForm.AddQuestion | client/src/pages/CreateQuiz.tsx:47-62 | appends a blank question with two options, the first correct, and keeps the rest |
| QuizForm.AddOption | client/src/pages/CreateQuiz.tsx:64-68 | appends one empty incorrect option to that question only |
| QuizForm.EditKeepsInvariant | client/src/pages/CreateQuiz.tsx:25-68 | every offered edit keeps each question at two or more options with exactly one correct |
| QuizForm.ReplayKeepsInvariant | client/src/pages/CreateQuiz.tsx:8-68 | every form reachable by edits keeps that invariant |
| QuizForm.SplitTags | client/src/pages/CreateQuiz.tsx:76 | one tag more than commas, each the trimmed piece; an empty field gives one empty tag |
| QuizForm.Payload | client/src/pages/CreateQuiz.tsx:72-78 | the body carries the form's name, topic, description and split tags, and each question's text, review and options with their texts and flags, in order |
| QuizForm.QuestionPasses | server/src/controllers/quiz.controller.ts:31-41 | a question of a form that keeps the invariant passes the per-question check |
| QuizForm.ReachableFormIsAccepted | client/src/pages/CreateQuiz.tsx:70-85 | any reachable form passes validation exactly when name and topic are filled, and once the browser allows submission the quiz is created |
| AttemptPage.Select | client/src/pages/StartQuiz.tsx:76-78 | the question now maps to the option; key order is kept and a new key goes last |
| AttemptPage.SelectKeepsOthers | client/src/pages/StartQuiz.tsx:76-78 | every other question keeps its entry |
| AttemptPage.SelectKeepsKeysUnique | client/src/pages/StartQuiz.tsx:76-78 | the map's keys stay distinct |
| AttemptPage.Payload | client/src/pages/StartQuiz.tsx:60-62 | every item comes from a non-null entry, every non-null entry is sent, and the body is empty exactly when all entries are null |
| AttemptPage.PayloadAgreesWithMap | client/src/pages/StartQuiz.tsx:60-62 | each item carries the option the map holds for its question |
| AttemptPage.PayloadKeysUnique | client/src/pages/StartQuiz.tsx:60-62 | no question appears twice in the body |
| AttemptPage.SubmitRequest | client/src/pages/StartQuiz.tsx:80-85 | submit sends exactly when some entry is non-null, and then a non-empty list the server's 400 check accepts |
| AttemptPage.AutosaveRequest | client/src/pages/StartQuiz.tsx:56-64 | nothing is saved without an attempt id or with an empty map |
| AttemptPage.AutosaveMatchesSubmit | client/src/pages/StartQuiz.tsx:56-85 | autosave sends exactly when there is an attempt id and submit would send, and then the same body |
| AttemptPage.FindIndex | client/src/pages/StartQuiz.tsx:38 | the first position holding the id, or -1 exactly when it is absent |
| AttemptPage.ResumeIndex | client/src/pages/StartQuiz.tsx:29-40 | the first position of the last saved key's question, or 0 when nothing was saved or it is not in the quiz; always a valid index |
| AttemptPage.Navigate | client/src/pages/StartQuiz.tsx:132-156 | Prev works exactly away from 0, Next exactly before the last question, and both stay in range |
| AttemptPage.NavigationStaysInRange | client/src/pages/StartQuiz.tsx:133-156 | any sequence of presses keeps the index in [0, n-1] |
| AttemptPage.IndexStaysInRange | client/src/pages/StartQuiz.tsx:36-40 | from the resume position no sequence of presses leaves the question list |
| AttemptPage.OnStartReply | client/src/pages/StartQuiz.tsx:19-53 | a COMPLETED attempt redirects; a refusal redirects exactly when its message contains the completed-quiz text, and any other refusal leaves the page showing "Quiz not found"; otherwise the saved answers or none, the attempt id and the resume position are taken over |
| AttemptPage.CompletedRefusalRedirects | client/src/pages/StartQuiz.tsx:41-45 | the server's 403 for a completed quiz sends the page to the result |
| ResultView.CorrectBar | client/src/pages/QuizResult.tsx:48-51 | 1 exactly when the answer is correct, else 0 |
| ResultView.IncorrectBar | client/src/pages/QuizResult.tsx:53-58 | 1 exactly when not correct and an option was selected, else 0 |
| ResultView.UnattemptedBar | client/src/pages/QuizResult.tsx:60-64 | 1 exactly when no option was selected, else 0 |
| ResultView.BarsAreOneHot | client/src/pages/QuizResult.tsx:47-67 | when correctness implies a selection, exactly one bar is 1, the one of the question's outcome; otherwise Correct and Unattempted are both 1 |
| ResultView.BarsCoverEveryQuestion | client/src/pages/QuizResult.tsx:45-68 | over consistent entries the three datasets add up to the number of questions |
| ResultView.OptionHighlight | client/src/pages/QuizResult.tsx:96-111 | yellow exactly when unattempted; otherwise green exactly for the correct text and red exactly for a selected text that is not correct |
| ResultView.RedMarksAWrongSelection | client/src/pages/QuizResult.tsx:101-111 | some option is red exactly when the selected text is listed and is not the correct answer |
| ResultView.ServerEntriesAreAttempted | client/src/pages/QuizResult.tsx:99-104 | entries the server builds are consistent, never unattempted and never yellow |
| QuizCard.EstimatedMinutes | client/src/components/QuizCard.tsx:4 | the least whole number of minutes covering 30 s per question; a missing or zero count gives 0 |
| QuizCard.EstimateIsMonotone | client/src/components/QuizCard.tsx:4 | more questions never give a shorter estimate |

## Left out

- Prisma itself: transactions, races between concurrent requests and unexpected database
  failures are not modelled, and the model has no way to fail a read. In the source such a
  failure takes each handler's `catch`. That is the generic 500 in most handlers, and a 500
  "Quiz creation failed" in `createQuiz`. In `verifyJwtToken` a failing user lookup rejects
  inside the asynchronous `jwt.verify` callback, outside the `try`, and no response is sent.
- Catalog.QuestionInput: a question's `options` is always an array. A missing `options` array
  or a null question throws in the validation loop, before the `try`, and the request gets
  no response from the handler; that path is not modelled.
- Catalog.OptionInput: the body's fields are assumed well-typed. A question or option without
  a string `text`, an `isCorrect` that is truthy but not a boolean (such as `"yes"` or `1`),
  or a `name`, `topic` or tag that is not a string passes or skips the checks as its
  truthiness decides. Prisma then rejects the nested create inside the `try`, so the source
  answers 500 "Quiz creation failed" with no write. The model has no such values, so for the
  corresponding well-typed body it writes the quiz.
- bcrypt, JWT signing and verification, and token expiry are function parameters.
  `Accounts.SignupThenSignin` assumes that `compare` accepts a password against its own hash.
- Accounts.SignupThenSignin: `sign` is a function of the user id alone. The real token also
  carries its issue and expiry times, so a sign-in in a later second gets a different token
  for the same id; the model does not say the two tokens are byte-equal in that case.
- Accounts.Signup: `name`, `email` and `password` are always strings. A body without `email`
  or without `password` makes the lookup or the hashing throw inside the `try`, which gives
  the generic 500; such bodies are not modelled.
- Attempts.AnswerInput: every submitted element has a `questionId` and a `selectedOptionId`
  of the right type. An element lacking one, or with a non-string id, makes the option lookup
  or the answer insert throw, which gives the generic 500 after the old rows were deleted
  and the earlier rows written; such elements are not modelled.
- Guard.GetToken: the cookie branch is modelled, but this server installs no cookie parser
  and the client sends only `Authorization: Bearer`, so the cookie token is always absent
  and the header token is the only path in practice.
- Http.Respond: Express's fallback page is modelled by its status 500 only; its HTML body
  is not modelled.
- Guard.VerifyJwtToken: the id claim is read as a natural number or absent. Claims of other JSON types are not modelled.
- The Gemini chat endpoint and its configuration are not modelled, nor are cookies' transport,
  CORS, routing, logging, or the purely presentational pages and components.
- `getQuizzesByAdmin` is a plain query of the admin's own quizzes with no decision in it.
  It is not modelled.
- Handlers the quiz router imports but whose source is not available are not part of this
  model: `saveProgress` (the autosave endpoint), `askReviewBot`, `getChatHistory`,
  `generateAiQuestions` and the `getUser*` dashboard handlers. The router imports the review
  handler as `getQuizAttemptDetails`, but the controller exports `getQuizAttempDetails`. The
  model follows the controller's function.
- Routing: the `!quizId` 400 check in `startQuizAttempt` and `submitQuizAttempt` cannot
  trigger, because the route parameter is never empty. The model leaves it out.
- Attempts.GetAttemptDetails: it requires the store's integrity (`Store.Wf`), which the schema's
  foreign keys guarantee, because the source dereferences each answer's question and option
  unconditionally.
- Attempts.GetAttemptDetails: the percentage is kept as an exact real. The source formats it
  with `toFixed(2)` into a string, and renders a non-finite result as "NaN"; both are left out.
- Attempts.SubmitQuizAttempt: the preservation of integrity is stated in
  `Attempts.SubmitKeepsWf` rather than in the method's own contract.
- Catalog.CreateQuiz: tags are a set of names; the tag table's ids and the order of the
  `tags` array are not modelled.
- Catalog.ListQuizzes: the result is a set of summaries. The source's list order (database
  order) is not modelled. The creator is given as the name of a found user or none.
- Text.ContainsIgnoringCase: case folding is ASCII only. The database's Unicode-aware
  case-insensitive match is wider.
- Text.Trim: whitespace is the set JavaScript's `trim` uses, as code points. Surrogate pairs are not modelled.
- The attempt page: the rendered UI, the one-second debounce timer and the types of the ids
  (strings or numbers) are not modelled. Ids are natural numbers compared by value.
  The answer map is a sequence in insertion order. That matches `Object.keys` order only
  for keys that are not integer-like, which holds for the source's string ids but is not
  expressed by the model's numeric ids.
- The result page: the chart library and the rendering of the review text are not modelled.

=== FILE: accounts.dfy ===
/** Sign-up and sign-in (server/src/controllers/auth.controller.ts). Password hashing,
    hash comparison and token signing are bcrypt and JWT calls; they enter the model as
    uninterpreted function parameters `hash`, `compare` and `sign`. */
module Accounts {
  import opened Outcomes
  import opened Http
  import opened Store

  /** A user as sent to the client: the row with its `password` field removed. */
  datatype PublicUser = PublicUser(id: Id, name: string, email: string, role: Role)

  function WithoutPassword(u: UserRow): (p: PublicUser)
    ensures p.id == u.id && p.name == u.name && p.email == u.email && p.role == u.role
  {
    PublicUser(u.id, u.name, u.email, u.role)
  }

  /** Two rows give the same public user exactly when they differ at most in their
      password: the public user says nothing about the password. */
  lemma PublicUserIgnoresPassword(u: UserRow, v: UserRow)
    ensures WithoutPassword(u) == WithoutPassword(v) <==> u.(password := v.password) == v
  {
  }

  /** The JSON body of a successful sign-up or sign-in. */
  datatype AuthResponse = AuthResponse(msg: string, user: PublicUser, token: string)

  const UserExists := HttpError(401, "User already exists with this email!.")
  const MissingDetails := HttpError(400, "Please fill all the required details.")
  const InvalidCredentials := HttpError(401, "Invalid credentials")

  /** No two rows share an email (the unique index on `User.email`). */
  ghost predicate UniqueEmails(users: seq<UserRow>) {
    forall i, j :: 0 <= i < j < |users| ==> users[i].email != users[j].email
  }

  /** `signup`: a taken email is refused with 401 and nothing is written; otherwise one
      new USER row is appended whose password field holds `hash(password)`, and the
      response carries that row without its password and a token signed for its id. */
  function Signup(db: Db, name: string, email: string, password: string,
                  hash: string -> string, sign: Id -> string): (h: Handled<AuthResponse>)
    ensures h.outcome.Err? <==> exists i :: 0 <= i < |db.users| && db.users[i].email == email
    ensures h.outcome.Err? ==> h.outcome.error == UserExists && h.db == db
    ensures h.outcome.Ok? ==>
      && |h.db.users| == |db.users| + 1
      && h.db.users[..|db.users|] == db.users
      && var row := h.db.users[|db.users|];
      && row.name == name && row.email == email && row.role == User
      && row.password == hash(password)
      && row.id == db.nextId && h.db.nextId > db.nextId
      && h.db == db.(users := h.db.users, nextId := h.db.nextId)
      && h.outcome.value.user == WithoutPassword(row)
      && h.outcome.value.token == sign(row.id)
  {
    if FindUser(db.users, ByEmail(email)).Some? then
      Handled(db, Err(UserExists))
    else
      var row := UserRow(db.nextId, name, email, hash(password), User);
      var users' := db.users + [row];
      assert users'[..|db.users|] == db.users;
      Handled(db.(users := users', nextId := db.nextId + 1),
              Ok(AuthResponse("User signup successful!", WithoutPassword(row), sign(row.id))))
  }

  /** `signin`: an empty email or password is a 400 before any lookup; an unknown email
      and a wrong password are the same 401; otherwise the found user without its
      password and a token signed for its id. */
  function Signin(db: Db, email: string, password: string,
                  compare: (string, string) -> bool, sign: Id -> string): (r: Result<AuthResponse, HttpError>)
    ensures (email == "" || password == "") ==> r == Err(MissingDetails)
    ensures r.Ok? <==>
      && email != "" && password != ""
      && FindUser(db.users, ByEmail(email)).Some?
      && compare(password, FindUser(db.users, ByEmail(email)).value.password)
    ensures r.Err? && email != "" && password != "" ==> r == Err(InvalidCredentials)
    ensures r.Ok? ==>
      && (exists i :: 0 <= i < |db.users| && r.value.user == WithoutPassword(db.users[i])
                                          && compare(password, db.users[i].password))
      && r.value.user.email == email
      && r.value.token == sign(r.value.user.id)
  {
    if email == "" || password == "" then Err(MissingDetails)
    else
      match FindUser(db.users, ByEmail(email))
      case None => Err(InvalidCredentials)
      case Some(u) =>
        if !compare(password, u.password) then Err(InvalidCredentials)
        else
          Ok(AuthResponse("User signin successful!", WithoutPassword(u), sign(u.id)))
  }

  /** An unknown email and a wrong password for a known one cannot be told apart. */
  lemma SigninFailuresIndistinguishable(db: Db, unknown: string, known: string, wrong: string,
                                         compare: (string, string) -> bool, sign: Id -> string)
    requires unknown != "" && known != "" && wrong != ""
    requires forall i :: 0 <= i < |db.users| ==> db.users[i].email != unknown
    requires FindUser(db.users, ByEmail(known)).Some?
    requires !compare(wrong, FindUser(db.users, ByEmail(known)).value.password)
    ensures Signin(db, unknown, wrong, compare, sign) == Signin(db, known, wrong, compare, sign)
    ensures Signin(db, known, wrong, compare, sign) == Err(InvalidCredentials)
  {
  }

  /** Looking an email up after appending a row finds the new row when no older row has it. */
  lemma {:induction false} FindAppended(users: seq<UserRow>, row: UserRow)
    requires forall i :: 0 <= i < |users| ==> users[i].email != row.email
    ensures FindUser(users + [row], ByEmail(row.email)) == Some(row)
  {
    if users != [] {
      assert (users + [row])[1..] == users[1..] + [row];
      FindAppended(users[1..], row);
    }
  }

  /** Signing in right after signing up, with the same password, succeeds and returns the
      same user and a token signed for the same id, provided bcrypt accepts a password against its own hash. */
  lemma SignupThenSignin(db: Db, name: string, email: string, password: string,
                         hash: string -> string, compare: (string, string) -> bool, sign: Id -> string)
    requires email != "" && password != ""
    requires compare(password, hash(password))
    requires Signup(db, name, email, password, hash, sign).outcome.Ok?
    ensures var h := Signup(db, name, email, password, hash, sign);
            Signin(h.db, email, password, compare, sign)
              == Ok(AuthResponse("User signin successful!", h.outcome.value.user, h.outcome.value.token))
  {
    var h := Signup(db, name, email, password, hash, sign);
    var row := h.db.users[|db.users|];
    assert h.db.users == db.users + [row];
    FindAppended(db.users, row);
  }

  /** Sign-up never creates a second row with an email already taken. */
  lemma SignupKeepsEmailsUnique(db: Db, name: string, email: string, password: string,
                                hash: string -> string, sign: Id -> string)
    requires UniqueEmails(db.users)
    ensures UniqueEmails(Signup(db, name, email, password, hash, sign).db.users)
  {
  }

  /** Sign-up keeps the store's integrity. */
  lemma SignupKeepsWf(db: Db, name: string, email: string, password: string,
                      hash: string -> string, sign: Id -> string)
    requires Wf(db)
    ensures Wf(Signup(db, name, email, password, hash, sign).db)
  {
  }
}

=== FILE: attemptpage.dfy ===
/** The attempt-taking page (client/src/pages/StartQuiz.tsx): the answers object, the
    request bodies of autosave and submit, where the page resumes, the Prev/Next bounds,
    and what the page does with the start response. */
module AttemptPage {
  import opened Outcomes
  import opened Http
  import opened Text
  import Store
  import Attempts

  type Id = nat

  /** One property of the `answers` object: a question id and the selected option id,
      or `null`. */
  datatype Entry = Entry(questionId: Id, choice: Option<Id>)

  /** The `answers` object as its properties in insertion order, the order in which
      `Object.keys` and `Object.entries` list them. */
  type AnswerMap = seq<Entry>

  ghost predicate UniqueKeys(m: AnswerMap) {
    forall i, j :: 0 <= i < j < |m| ==> m[i].questionId != m[j].questionId
  }

  function Keys(m: AnswerMap): (ks: seq<Id>)
    ensures |ks| == |m|
    ensures forall q :: q in ks <==> exists e :: e in m && e.questionId == q
  {
    if m == [] then [] else [m[0].questionId] + Keys(m[1..])
  }

  /** `answers[questionId]`: `None` when the key is absent. */
  function Lookup(m: AnswerMap, q: Id): (r: Option<Option<Id>>)
    ensures r.None? <==> q !in Keys(m)
    ensures r.Some? ==> Entry(q, r.value) in m
  {
    if m == [] then None
    else if m[0].questionId == q then Some(m[0].choice)
    else Lookup(m[1..], q)
  }

  /** `handleOptionSelect(q, o)`, i.e. `{...prev, [q]: o}`: `q` now maps to `o`, every
      other key keeps its value, and the key order is kept (a new key goes last). */
  function Select(m: AnswerMap, q: Id, o: Id): (r: AnswerMap)
    ensures Lookup(r, q) == Some(Some(o))
    ensures Keys(r) == if q in Keys(m) then Keys(m) else Keys(m) + [q]
  {
    if m == [] then [Entry(q, Some(o))]
    else if m[0].questionId == q then
      var r := [Entry(q, Some(o))] + m[1..];
      assert r[1..] == m[1..];
      r
    else
      var rest := Select(m[1..], q, o);
      var r := [m[0]] + rest;
      assert r[0] == m[0] && r[1..] == rest;
      r
  }

  /** Selecting an option for one question leaves every other question's entry as it was. */
  lemma {:induction false} SelectKeepsOthers(m: AnswerMap, q: Id, o: Id, k: Id)
    requires k != q
    ensures Lookup(Select(m, q, o), k) == Lookup(m, k)
  {
    if m != [] && m[0].questionId != q {
      SelectKeepsOthers(m[1..], q, o, k);
    }
  }

  /** Since `Select` keeps the keys or appends a new one, the keys stay distinct. */
  lemma {:induction false} SelectKeepsKeysUnique(m: AnswerMap, q: Id, o: Id)
    requires UniqueKeys(m)
    ensures UniqueKeys(Select(m, q, o))
  {
    if m != [] && m[0].questionId != q {
      SelectKeepsKeysUnique(m[1..], q, o);
      var rest := Select(m[1..], q, o);
      assert m[0].questionId !in Keys(m[1..]);
      forall j | 0 <= j < |rest| ensures rest[j].questionId != m[0].questionId {
        assert rest[j] in rest;
        assert rest[j].questionId in Keys(rest);
      }
    }
  }

  /** The answer list both autosave and submit build:
      `Object.entries(answers).filter(([_, v]) => v !== null).map(...)`. */
  function Payload(m: AnswerMap): (p: seq<Attempts.AnswerInput>)
    ensures |p| <= |m|
    ensures forall j :: 0 <= j < |p| ==> Entry(p[j].questionId, Some(p[j].selectedOptionId)) in m
    ensures forall i :: 0 <= i < |m| && m[i].choice.Some? ==>
              Attempts.AnswerInput(m[i].questionId, m[i].choice.value) in p
    ensures (forall i :: 0 <= i < |m| ==> m[i].choice.None?) <==> p == []
  {
    if m == [] then []
    else
      var rest := Payload(m[1..]);
      if m[0].choice.Some? then [Attempts.AnswerInput(m[0].questionId, m[0].choice.value)] + rest
      else rest
  }

  /** With distinct keys, the entry at any position is the one `Lookup` finds. */
  lemma {:induction false} LookupFindsEntry(m: AnswerMap, i: nat)
    requires UniqueKeys(m) && i < |m|
    ensures Lookup(m, m[i].questionId) == Some(m[i].choice)
  {
    if i > 0 {
      assert m[1..][i - 1] == m[i];
      LookupFindsEntry(m[1..], i - 1);
    }
  }

  /** With distinct keys, every payload item carries the option the map holds for its
      question. */
  lemma PayloadAgreesWithMap(m: AnswerMap)
    requires UniqueKeys(m)
    ensures var p := Payload(m);
            forall j :: 0 <= j < |p| ==> Lookup(m, p[j].questionId) == Some(Some(p[j].selectedOptionId))
  {
    var p := Payload(m);
    forall j | 0 <= j < |p|
      ensures Lookup(m, p[j].questionId) == Some(Some(p[j].selectedOptionId))
    {
      var i :| 0 <= i < |m| && m[i] == Entry(p[j].questionId, Some(p[j].selectedOptionId));
      LookupFindsEntry(m, i);
    }
  }

  /** With distinct keys, no question appears twice in the payload. */
  lemma {:induction false} PayloadKeysUnique(m: AnswerMap)
    requires UniqueKeys(m)
    ensures DistinctQuestions(Payload(m))
  {
    if m != [] {
      PayloadKeysUnique(m[1..]);
      var rest := Payload(m[1..]);
      assert m[0].questionId !in Keys(m[1..]);
      forall j | 0 <= j < |rest| ensures rest[j].questionId != m[0].questionId {
        var e := Entry(rest[j].questionId, Some(rest[j].selectedOptionId));
        assert e in m[1..];
        assert rest[j].questionId in Keys(m[1..]);
      }
      if m[0].choice.Some? {
        PrependKeepsDistinct(Attempts.AnswerInput(m[0].questionId, m[0].choice.value), rest);
      }
    }
  }

  ghost predicate DistinctQuestions(p: seq<Attempts.AnswerInput>) {
    forall j, k :: 0 <= j < k < |p| ==> p[j].questionId != p[k].questionId
  }

  lemma PrependKeepsDistinct(x: Attempts.AnswerInput, rest: seq<Attempts.AnswerInput>)
    requires DistinctQuestions(rest)
    requires forall j :: 0 <= j < |rest| ==> rest[j].questionId != x.questionId
    ensures DistinctQuestions([x] + rest)
  {
    var p := [x] + rest;
    forall j, k | 0 <= j < k < |p| ensures p[j].questionId != p[k].questionId {
      assert p[k] == rest[k - 1];
      if j > 0 {
        assert p[j] == rest[j - 1];
      }
    }
  }

  /** `handleSubmit`: nothing is sent when the payload is empty; otherwise the payload,
      which is then a non-empty array and passes the server's 400 check. */
  function SubmitRequest(m: AnswerMap): (r: Option<seq<Attempts.AnswerInput>>)
    ensures r.Some? <==> exists i :: 0 <= i < |m| && m[i].choice.Some?
    ensures r.Some? ==> r.value == Payload(m) && |r.value| > 0
  {
    var p := Payload(m);
    if |p| == 0 then None else Some(p)
  }

  /** The autosave effect: nothing without an attempt id or with an empty map, and
      nothing when the payload is empty. */
  function AutosaveRequest(attemptId: Option<Id>, m: AnswerMap): (r: Option<seq<Attempts.AnswerInput>>)
    ensures attemptId.None? || m == [] ==> r.None?
  {
    if attemptId.None? || |m| == 0 then None
    else
      var p := Payload(m);
      if |p| == 0 then None else Some(p)
  }

  /** Autosave sends exactly when an attempt id is known and submit would send, and then
      it sends the same body. */
  lemma AutosaveMatchesSubmit(attemptId: Option<Id>, m: AnswerMap)
    ensures AutosaveRequest(attemptId, m).Some? <==> attemptId.Some? && SubmitRequest(m).Some?
    ensures AutosaveRequest(attemptId, m).Some? ==> AutosaveRequest(attemptId, m) == SubmitRequest(m)
  {
  }

  /** `questions.findIndex((q) => q.id === x)`. */
  function FindIndex(ids: seq<Id>, x: Id): (r: int)
    ensures -1 <= r < |ids|
    ensures r == -1 <==> x !in ids
    ensures r >= 0 ==> ids[r] == x && forall j :: 0 <= j < r ==> ids[j] != x
  {
    if ids == [] then -1
    else if ids[0] == x then 0
    else
      var r := FindIndex(ids[1..], x);
      if r == -1 then -1 else r + 1
  }

  /** Where the page resumes: the position of the question whose id is the last saved key,
      or 0 when nothing was saved or that question is not in the quiz. */
  function ResumeIndex(questionIds: seq<Id>, saved: AnswerMap): (r: nat)
    ensures |questionIds| > 0 ==> r < |questionIds|
    ensures saved == [] ==> r == 0
    ensures saved != [] && saved[|saved| - 1].questionId in questionIds ==>
              questionIds[r] == saved[|saved| - 1].questionId
              && forall j :: 0 <= j < r ==> questionIds[j] != saved[|saved| - 1].questionId
    ensures saved != [] && saved[|saved| - 1].questionId !in questionIds ==> r == 0
  {
    if |saved| == 0 then 0
    else
      var k := FindIndex(questionIds, saved[|saved| - 1].questionId);
      if k != -1 then k else 0
  }

  datatype Nav = Prev | Next

  /** The index after a navigation button, or `None` when the button cannot be pressed:
      Prev is disabled at 0, and on the last question Submit replaces Next. */
  function Navigate(i: int, n: nat, nav: Nav): (r: Option<int>)
    ensures 0 <= i < n && r.Some? ==> 0 <= r.value < n
    ensures nav == Prev ==> (r.Some? <==> i != 0)
    ensures nav == Next ==> (r.Some? <==> i != n - 1)
  {
    match nav
    case Prev => if i == 0 then None else Some(i - 1)
    case Next => if i == n - 1 then None else Some(i + 1)
  }

  /** The index after a sequence of button presses; presses that are not possible do nothing. */
  function NavigateAll(i: int, n: nat, navs: seq<Nav>): int
    decreases |navs|
  {
    if navs == [] then i
    else
      match Navigate(i, n, navs[0])
      case None => NavigateAll(i, n, navs[1..])
      case Some(j) => NavigateAll(j, n, navs[1..])
  }

  /** From wherever the page resumes, no sequence of Prev/Next presses leaves
      [0, n - 1], so the current question always exists. */
  lemma {:induction false} IndexStaysInRange(questionIds: seq<Id>, saved: AnswerMap, navs: seq<Nav>)
    requires |questionIds| > 0
    ensures 0 <= NavigateAll(ResumeIndex(questionIds, saved), |questionIds|, navs) < |questionIds|
  {
    NavigationStaysInRange(ResumeIndex(questionIds, saved), |questionIds|, navs);
  }

  lemma {:induction false} NavigationStaysInRange(i: int, n: nat, navs: seq<Nav>)
    requires 0 <= i < n
    ensures 0 <= NavigateAll(i, n, navs) < n
    decreases |navs|
  {
    if navs != [] {
      match Navigate(i, n, navs[0])
      case None => NavigationStaysInRange(i, n, navs[1..]);
      case Some(j) => NavigationStaysInRange(j, n, navs[1..]);
    }
  }

  /** The start request's outcome as the page reads it: the response body's fields it
      looks at, or the `msg` of the error body. */
  datatype StartReply =
    | Loaded(attemptStatus: Option<Store.Status>, questionIds: seq<Id>,
             savedAnswers: Option<AnswerMap>, attemptId: Option<Id>)
    | Failed(msg: string)

  /** What the page does next. On any other failure the error is only logged and loading
      ends with no quiz, so the page shows "Quiz not found". */
  datatype PageAction = RedirectToResult | ShowQuiz(answers: AnswerMap, attemptId: Option<Id>, index: nat) | ShowNotFound

  const CompletedMessage := "You have already completed this quiz."

  /** The fetch effect: a COMPLETED attempt or a refusal mentioning the completed quiz
      redirects to the result page without loading the quiz; any other refusal leaves the
      page without a quiz; otherwise the saved answers (or none), the attempt id and the
      resume position are taken over. */
  function OnStartReply(reply: StartReply): (a: PageAction)
    ensures reply.Loaded? && reply.attemptStatus == Some(Store.Completed) ==> a == RedirectToResult
    ensures reply.Failed? ==> (a == RedirectToResult <==> IsInfix(CompletedMessage, reply.msg))
    ensures reply.Failed? && !IsInfix(CompletedMessage, reply.msg) ==> a == ShowNotFound
    ensures reply.Loaded? && reply.attemptStatus != Some(Store.Completed) ==>
      var answers := reply.savedAnswers.OrElse([]);
      a == ShowQuiz(answers, reply.attemptId, ResumeIndex(reply.questionIds, answers))
    ensures a.ShowQuiz? ==> reply.Loaded? && a.answers == reply.savedAnswers.OrElse([])
                            && a.attemptId == reply.attemptId
  {
    match reply
    case Loaded(status, ids, saved, attemptId) =>
      if status == Some(Store.Completed) then RedirectToResult
      else
        var answers := saved.OrElse([]);
        ShowQuiz(answers, attemptId, ResumeIndex(ids, answers))
    case Failed(msg) =>
      if Contains(msg, CompletedMessage) then RedirectToResult else ShowNotFound
  }

  /** The server's refusal for an already completed quiz carries the very message the
      page looks for, so that refusal also lands on the result page. */
  lemma CompletedRefusalRedirects()
    ensures OnStartReply(Failed(Respond(Attempts.AlreadyCompleted).env.msg)) == RedirectToResult
  {
    assert OccursAt(CompletedMessage, Respond(Attempts.AlreadyCompleted).env.msg, 0);
  }
}

=== FILE: attempts.dfy ===
/** The attempt lifecycle of one user at one quiz (server/src/controllers/quiz.controller.ts,
    `startQuizAttempt`, `submitQuizAttempt`, `getQuizAttempDetails`). An attempt is absent,
    IN_PROGRESS or COMPLETED, and COMPLETED is terminal. */
module Attempts {
  import opened Outcomes
  import opened Http
  import opened Store

  /** The quiz as `startQuizAttempt` sends it: question ids and texts, option ids and
      texts; neither reviews nor correctness flags. */
  datatype OptionView = OptionView(id: Id, text: string)
  datatype QuestionView = QuestionView(id: Id, text: string, options: seq<OptionView>)
  datatype QuizView = QuizView(id: Id, name: string, description: string, topic: string,
                               createdById: Id, questions: seq<QuestionView>, tags: set<string>)

  function OptionViewOf(o: OptionRow): OptionView {
    OptionView(o.id, o.text)
  }

  function QuestionViewOf(q: Question): (v: QuestionView)
    ensures v.id == q.id && v.text == q.text && |v.options| == |q.options|
    ensures forall j :: 0 <= j < |q.options| ==> v.options[j] == OptionView(q.options[j].id, q.options[j].text)
  {
    QuestionView(q.id, q.text, seq(|q.options|, j requires 0 <= j < |q.options| => OptionViewOf(q.options[j])))
  }

  function ViewOf(q: Quiz): (v: QuizView)
    ensures v.id == q.id && v.name == q.name && v.description == q.description && v.topic == q.topic
    ensures v.createdById == q.createdById && v.tags == q.tags
    ensures |v.questions| == |q.questions|
    ensures forall i :: 0 <= i < |q.questions| ==> v.questions[i] == QuestionViewOf(q.questions[i])
  {
    QuizView(q.id, q.name, q.description, q.topic, q.createdById,
             seq(|q.questions|, i requires 0 <= i < |q.questions| => QuestionViewOf(q.questions[i])), q.tags)
  }

  /** Two quizzes that differ at most in their reviews and in which options are correct. */
  ghost predicate SameButAnswers(q1: Quiz, q2: Quiz) {
    && q1.(questions := q2.questions) == q2
    && |q1.questions| == |q2.questions|
    && forall i :: 0 <= i < |q1.questions| ==>
         && q1.questions[i].id == q2.questions[i].id && q1.questions[i].text == q2.questions[i].text
         && |q1.questions[i].options| == |q2.questions[i].options|
         && forall j :: 0 <= j < |q1.questions[i].options| ==>
              q1.questions[i].options[j].id == q2.questions[i].options[j].id
              && q1.questions[i].options[j].text == q2.questions[i].options[j].text
  }

  /** The quiz sent to a player reveals neither reviews nor correct answers: quizzes that
      differ only there are sent identically. */
  lemma ViewHidesAnswers(q1: Quiz, q2: Quiz)
    requires SameButAnswers(q1, q2)
    ensures ViewOf(q1) == ViewOf(q2)
  {
    forall i | 0 <= i < |q1.questions|
      ensures QuestionViewOf(q1.questions[i]) == QuestionViewOf(q2.questions[i])
    {
      assert QuestionViewOf(q1.questions[i]).options == QuestionViewOf(q2.questions[i]).options;
    }
    assert ViewOf(q1).questions == ViewOf(q2).questions;
  }

  /** The attempt row as `findFirst` and `create` return it: no relations are included,
      so the stored answers are not part of it. */
  datatype AttemptRow = AttemptRow(id: Id, userId: Id, quizId: Id, status: Status, score: int)

  function RowOf(a: Attempt): (r: AttemptRow)
    ensures r.id == a.id && r.userId == a.userId && r.quizId == a.quizId
    ensures r.status == a.status && r.score == a.score
  {
    AttemptRow(a.id, a.userId, a.quizId, a.status, a.score)
  }

  datatype StartResponse = StartResponse(quiz: QuizView, attempt: AttemptRow)

  const QuizNotFound := HttpError(404, "Quiz not found!")
  const AlreadyCompleted := HttpError(403, "You have already completed this quiz.")
  const InvalidSubmission := HttpError(400, "Invalid quiz submission!")
  const AttemptNotFound := HttpError(404, "Quiz attempt not found")
  const AlreadySubmitted := HttpError(403, "Quiz already submitted")
  const NoAttempt := HttpError(404, "No attempt found for this quiz!")

  /** The attempt a fresh start creates. */
  function NewAttempt(db: Db, userId: Id, quizId: Id): Attempt {
    Attempt(db.nextId, userId, quizId, InProgress, 0, [])
  }

  /** `startQuizAttempt`: an unknown quiz is a 404 and a COMPLETED attempt a 403, both
      without writes; an IN_PROGRESS attempt is returned as it is, without writes;
      otherwise exactly one new IN_PROGRESS attempt with score 0 is created. */
  function StartQuizAttempt(db: Db, userId: Id, quizId: Id): (h: Handled<StartResponse>)
    ensures quizId !in db.quizzes ==> h == Handled(db, Err(QuizNotFound))
    ensures h.outcome.Err? ==> h.db == db
    ensures quizId in db.quizzes ==>
      var key := AttemptKey(userId, quizId);
      && (key in db.attempts && db.attempts[key].status == Completed ==> h.outcome == Err(AlreadyCompleted))
      && (key in db.attempts && db.attempts[key].status == InProgress ==>
            h.db == db && h.outcome.Ok? && h.outcome.value.attempt == RowOf(db.attempts[key]))
      && (key !in db.attempts ==>
            && h.outcome.Ok? && key in h.db.attempts
            && h.db.attempts[key] == Attempt(h.outcome.value.attempt.id, userId, quizId, InProgress, 0, [])
            && h.outcome.value.attempt == RowOf(h.db.attempts[key])
            && (Wf(db) ==> h.outcome.value.attempt.id !in (set k | k in db.attempts :: db.attempts[k].id))
            && h.db.attempts == db.attempts[key := h.db.attempts[key]]
            && h.db == db.(attempts := h.db.attempts, nextId := h.db.nextId))
    ensures h.outcome.Ok? ==> h.outcome.value.quiz == ViewOf(db.quizzes[quizId])
    ensures Wf(db) ==> Wf(h.db)
  {
    if quizId !in db.quizzes then Handled(db, Err(QuizNotFound))
    else
      var key := AttemptKey(userId, quizId);
      if key in db.attempts && db.attempts[key].status == Completed then Handled(db, Err(AlreadyCompleted))
      else if key in db.attempts then Handled(db, Ok(StartResponse(ViewOf(db.quizzes[quizId]), RowOf(db.attempts[key]))))
      else
        var a := NewAttempt(db, userId, quizId);
        var db' := db.(attempts := db.attempts[key := a], nextId := db.nextId + 1);
        assert Wf(db) ==> forall k :: k in db.attempts ==> db.attempts[k].id < db.nextId;
        Handled(db', Ok(StartResponse(ViewOf(db.quizzes[quizId]), RowOf(a))))
  }

  /** Starting again while IN_PROGRESS is idempotent: same attempt, no writes. */
  lemma StartIsIdempotent(db: Db, userId: Id, quizId: Id)
    requires StartQuizAttempt(db, userId, quizId).outcome.Ok?
    ensures var h := StartQuizAttempt(db, userId, quizId);
            StartQuizAttempt(h.db, userId, quizId) == Handled(h.db, h.outcome)
  {
  }

  /** One element of a submitted `answers` array. */
  datatype AnswerInput = AnswerInput(questionId: Id, selectedOptionId: Id)

  /** The answer rows a submit writes: the submitted answers whose option exists,
      in submission order; the others are skipped. */
  function Resolved(options: map<Id, OptionRow>, answers: seq<AnswerInput>): (stored: seq<StoredAnswer>)
    ensures |stored| <= |answers|
    ensures forall j :: 0 <= j < |stored| ==> stored[j].selectedOptionId in options
    ensures forall j :: 0 <= j < |stored| ==>
      exists i :: 0 <= i < |answers| && answers[i] == AnswerInput(stored[j].questionId, stored[j].selectedOptionId)
    ensures (forall i :: 0 <= i < |answers| ==> answers[i].selectedOptionId in options) ==> |stored| == |answers|
    ensures forall i :: 0 <= i < |answers| && answers[i].selectedOptionId in options ==>
      StoredAnswer(answers[i].questionId, answers[i].selectedOptionId) in stored
    decreases |answers|
  {
    if answers == [] then []
    else
      var init := Resolved(options, answers[..|answers| - 1]);
      var a := answers[|answers| - 1];
      if a.selectedOptionId in options then init + [StoredAnswer(a.questionId, a.selectedOptionId)] else init
  }

  /** Resolving is a filter: resolving two runs of answers one after the other gives the
      rows of the first run followed by those of the second. */
  lemma {:induction false} ResolvedDistributes(options: map<Id, OptionRow>, a: seq<AnswerInput>, b: seq<AnswerInput>)
    ensures Resolved(options, a + b) == Resolved(options, a) + Resolved(options, b)
    decreases |b|
  {
    if b == [] {
      assert a + b == a;
    } else {
      assert (a + b)[..|a + b| - 1] == a + b[..|b| - 1];
      ResolvedDistributes(options, a, b[..|b| - 1]);
    }
  }

  /** The points one answer is worth: +10 for a correct option, -4 otherwise. */
  function Impact(o: OptionRow): int {
    if o.isCorrect then 10 else -4
  }

  ghost predicate OptionsResolve(options: map<Id, OptionRow>, stored: seq<StoredAnswer>) {
    forall j :: 0 <= j < |stored| ==> stored[j].selectedOptionId in options
  }

  /** The sum of the points of the stored answers. */
  function ImpactSum(options: map<Id, OptionRow>, stored: seq<StoredAnswer>): int
    requires OptionsResolve(options, stored)
  {
    if stored == [] then 0
    else ImpactSum(options, stored[..|stored| - 1]) + Impact(options[stored[|stored| - 1].selectedOptionId])
  }

  /** How many stored answers select a correct option. */
  function CorrectCount(options: map<Id, OptionRow>, stored: seq<StoredAnswer>): (c: nat)
    requires OptionsResolve(options, stored)
    ensures c <= |stored|
  {
    if stored == [] then 0
    else CorrectCount(options, stored[..|stored| - 1])
         + (if options[stored[|stored| - 1].selectedOptionId].isCorrect then 1 else 0)
  }

  /** The score is 10 per correct answer minus 4 per incorrect one, so it lies
      between -4 and 10 times the number of scored answers. */
  lemma {:induction false} ScoreBreakdown(options: map<Id, OptionRow>, stored: seq<StoredAnswer>)
    requires OptionsResolve(options, stored)
    ensures ImpactSum(options, stored) == 10 * CorrectCount(options, stored) - 4 * (|stored| - CorrectCount(options, stored))
    ensures -4 * |stored| <= ImpactSum(options, stored) <= 10 * |stored|
  {
    if stored != [] {
      ScoreBreakdown(options, stored[..|stored| - 1]);
    }
  }

  /** Every scored answer's question exists (the `Answer.questionId` foreign key). */
  ghost predicate QuestionsResolve(db: Db, stored: seq<StoredAnswer>) {
    forall j :: 0 <= j < |stored| ==> stored[j].questionId in db.questions
  }

  /** The submit stops at answer `k`: its option exists but its question does not, so
      `prisma.answer.create` throws after the answers before it were written. */
  ghost predicate FailsAt(db: Db, answers: seq<AnswerInput>, k: int) {
    && 0 <= k < |answers|
    && answers[k].selectedOptionId in db.options
    && answers[k].questionId !in db.questions
    && QuestionsResolve(db, Resolved(db.options, answers[..k]))
  }

  /** The attempt at `key` with its answer rows replaced. */
  function WithAnswers(db: Db, key: AttemptKey, stored: seq<StoredAnswer>): Db
    requires key in db.attempts
  {
    db.(attempts := db.attempts[key := db.attempts[key].(answers := stored)])
  }

  /** The attempt at `key` closed with its answer rows and final score. */
  function Closed(db: Db, key: AttemptKey, stored: seq<StoredAnswer>, score: int): Db
    requires key in db.attempts
  {
    db.(attempts := db.attempts[key := db.attempts[key].(status := Completed, score := score, answers := stored)])
  }

  /** Resolving a prefix of the answers gives a prefix of the rows for all of them. */
  lemma ResolvedOfPrefix(options: map<Id, OptionRow>, answers: seq<AnswerInput>, n: nat)
    requires n <= |answers|
    ensures var full := Resolved(options, answers);
            var part := Resolved(options, answers[..n]);
            |part| <= |full| && full[..|part|] == part
  {
    assert answers == answers[..n] + answers[n..];
    ResolvedDistributes(options, answers[..n], answers[n..]);
  }

  /** One more answer extends the written rows by its row exactly when its option exists. */
  lemma ResolvedStep(options: map<Id, OptionRow>, list: seq<AnswerInput>, i: nat)
    requires i < |list|
    ensures var a := list[i];
            Resolved(options, list[..i + 1])
              == Resolved(options, list[..i]) + (if a.selectedOptionId in options then [StoredAnswer(a.questionId, a.selectedOptionId)] else [])
  {
    assert list[..i + 1][..i] == list[..i];
  }

  /** One more scored row adds its points. */
  lemma ImpactSumStep(options: map<Id, OptionRow>, stored: seq<StoredAnswer>, row: StoredAnswer)
    requires OptionsResolve(options, stored) && row.selectedOptionId in options
    ensures OptionsResolve(options, stored + [row])
    ensures ImpactSum(options, stored + [row]) == ImpactSum(options, stored) + Impact(options[row.selectedOptionId])
  {
    assert (stored + [row])[..|stored|] == stored;
  }

  /** Stopping at an answer whose option exists but whose question does not: the submit
      fails there, and the rows for all the answers do not all resolve. */
  lemma StopIsFailure(db: Db, list: seq<AnswerInput>, i: nat)
    requires i < |list| && list[i].selectedOptionId in db.options && list[i].questionId !in db.questions
    requires QuestionsResolve(db, Resolved(db.options, list[..i]))
    ensures FailsAt(db, list, i)
    ensures !QuestionsResolve(db, Resolved(db.options, list))
  {
    var before := Resolved(db.options, list[..i]);
    ResolvedStep(db.options, list, i);
    var next := Resolved(db.options, list[..i + 1]);
    assert next[|before|].questionId == list[i].questionId;
    ResolvedOfPrefix(db.options, list, i + 1);
    assert list[..|list|] == list;
  }

  /** The write loop of `submitQuizAttempt`: each answer whose option exists is written
      and scored in order. It either writes them all (`failed` false), or stops at the
      first answer whose question is missing (`failed` true), with the rows before it
      written. */
  method WriteAnswers(db: Db, list: seq<AnswerInput>) returns (stored: seq<StoredAnswer>, score: int, failed: bool)
    ensures failed <==> !QuestionsResolve(db, Resolved(db.options, list))
    ensures !failed ==> stored == Resolved(db.options, list) && score == ImpactSum(db.options, stored)
    ensures failed ==> exists k :: FailsAt(db, list, k) && stored == Resolved(db.options, list[..k])
  {
    stored := [];
    score := 0;
    var i := 0;
    while i < |list|
      invariant 0 <= i <= |list|
      invariant stored == Resolved(db.options, list[..i])
      invariant score == ImpactSum(db.options, stored)
      invariant QuestionsResolve(db, stored)
    {
      var ans := list[i];
      ResolvedStep(db.options, list, i);
      if ans.selectedOptionId in db.options {
        if ans.questionId !in db.questions {
          StopIsFailure(db, list, i);
          return stored, score, true;
        }
        var row := StoredAnswer(ans.questionId, ans.selectedOptionId);
        ImpactSumStep(db.options, stored, row);
        stored := stored + [row];
        score := score + (if db.options[ans.selectedOptionId].isCorrect then 10 else -4);
      }
      i := i + 1;
    }
    assert list[..i] == list;
    return stored, score, false;
  }

  /** `submitQuizAttempt`: a missing, non-array or empty `answers` is a 400, no attempt a
      404, a COMPLETED attempt a 403, all without writes. Otherwise the old answer rows are
      deleted, every answer whose option exists is written and scored (+10 correct, -4
      not), and the attempt is closed with that score. An answer whose option exists but
      whose question does not makes the write throw: a 500, with the rows written so far
      kept and the attempt still IN_PROGRESS. */
  method SubmitQuizAttempt(db: Db, userId: Id, quizId: Id, answers: Option<seq<AnswerInput>>)
    returns (h: Handled<int>)
    ensures (answers.None? || answers.value == []) ==> h == Handled(db, Err(InvalidSubmission))
    ensures answers.Some? && answers.value != [] ==>
      var key := AttemptKey(userId, quizId);
      && (key !in db.attempts ==> h == Handled(db, Err(AttemptNotFound)))
      && (key in db.attempts && db.attempts[key].status == Completed ==> h == Handled(db, Err(AlreadySubmitted)))
      && (key in db.attempts && db.attempts[key].status == InProgress ==>
            var stored := Resolved(db.options, answers.value);
            && (QuestionsResolve(db, stored) ==>
                  h == Handled(Closed(db, key, stored, ImpactSum(db.options, stored)), Ok(ImpactSum(db.options, stored))))
            && (!QuestionsResolve(db, stored) ==>
                  && h.outcome == Err(ErrorHandler())
                  && exists k :: FailsAt(db, answers.value, k)
                                 && h.db == WithAnswers(db, key, Resolved(db.options, answers.value[..k]))))
  {
    if answers.None? || |answers.value| == 0 {
      return Handled(db, Err(InvalidSubmission));
    }
    var key := AttemptKey(userId, quizId);
    if key !in db.attempts {
      return Handled(db, Err(AttemptNotFound));
    }
    if db.attempts[key].status == Completed {
      return Handled(db, Err(AlreadySubmitted));
    }
    var stored, score, failed := WriteAnswers(db, answers.value);
    if failed {
      return Handled(WithAnswers(db, key, stored), Err(ErrorHandler()));
    }
    return Handled(Closed(db, key, stored, score), Ok(score));
  }

  /** Replacing an IN_PROGRESS attempt's rows by rows whose references resolve, and
      optionally closing it, keeps the store's integrity. */
  lemma ReplacingAnswersKeepsWf(db: Db, key: AttemptKey, stored: seq<StoredAnswer>, score: int)
    requires Wf(db) && key in db.attempts
    requires OptionsResolve(db.options, stored) && QuestionsResolve(db, stored)
    ensures Wf(WithAnswers(db, key, stored))
    ensures Wf(Closed(db, key, stored, score))
  {
    assert AnswersResolve(db, stored);
    var a := db.attempts[key];
    var open := db.(attempts := db.attempts[key := a.(answers := stored)]);
    var closed := db.(attempts := db.attempts[key := a.(status := Completed, score := score, answers := stored)]);
    forall k | k in open.attempts ensures AnswersResolve(open, open.attempts[k].answers) {
      assert k != key ==> open.attempts[k] == db.attempts[k];
    }
    forall k | k in closed.attempts ensures AnswersResolve(closed, closed.attempts[k].answers) {
      assert k != key ==> closed.attempts[k] == db.attempts[k];
    }
  }

  /** Both states a submit that passed its checks can leave (see `SubmitQuizAttempt`)
      keep the store's integrity. */
  lemma SubmitKeepsWf(db: Db, key: AttemptKey, answers: seq<AnswerInput>, k: int)
    requires Wf(db) && key in db.attempts
    ensures QuestionsResolve(db, Resolved(db.options, answers)) ==>
              var stored := Resolved(db.options, answers);
              Wf(Closed(db, key, stored, ImpactSum(db.options, stored)))
    ensures FailsAt(db, answers, k) ==> Wf(WithAnswers(db, key, Resolved(db.options, answers[..k])))
  {
    if QuestionsResolve(db, Resolved(db.options, answers)) {
      var stored := Resolved(db.options, answers);
      ReplacingAnswersKeepsWf(db, key, stored, ImpactSum(db.options, stored));
    }
    if FailsAt(db, answers, k) {
      ReplacingAnswersKeepsWf(db, key, Resolved(db.options, answers[..k]), 0);
    }
  }

  /** After a submit that got through, the attempt is COMPLETED: a new start is refused
      with 403 and writes nothing (a second submit is refused by `SubmitQuizAttempt`'s
      COMPLETED case). */
  lemma NoStartAfterSubmit(db: Db, userId: Id, quizId: Id, stored: seq<StoredAnswer>, score: int)
    requires AttemptKey(userId, quizId) in db.attempts && quizId in db.quizzes
    ensures var db' := Closed(db, AttemptKey(userId, quizId), stored, score);
            && db'.attempts[AttemptKey(userId, quizId)].status == Completed
            && StartQuizAttempt(db', userId, quizId) == Handled(db', Err(AlreadyCompleted))
  {
  }

  /** One entry of the attempt review. */
  datatype Evaluated = Evaluated(questionId: Id, questionText: string, review: Option<string>,
                                 selectedOption: string, correctAnswer: Option<string>,
                                 isCorrect: bool, scoreImpact: int, options: seq<OptionRow>)

  /** The review: quiz name and topic, the stored score, the percentage and the entries. */
  datatype AttemptDetails = AttemptDetails(quizName: string, quizTopic: string, totalScore: int,
                                           percentage: Option<real>, evaluatedAnswers: seq<Evaluated>)

  /** `options.find((opt) => opt.isCorrect)`: the first correct option, if any. */
  function FirstCorrect(opts: seq<OptionRow>): (r: Option<OptionRow>)
    ensures r.None? <==> forall j :: 0 <= j < |opts| ==> !opts[j].isCorrect
    ensures r.Some? ==> exists j :: 0 <= j < |opts| && opts[j] == r.value && r.value.isCorrect
                                    && forall i :: 0 <= i < j ==> !opts[i].isCorrect
  {
    if opts == [] then None
    else if opts[0].isCorrect then Some(opts[0])
    else
      var r := FirstCorrect(opts[1..]);
      if r.Some? then
        var j :| 0 <= j < |opts[1..]| && opts[1..][j] == r.value && r.value.isCorrect
                 && forall i :: 0 <= i < j ==> !opts[1..][i].isCorrect;
        assert opts[j + 1] == r.value;
        r
      else r
  }

  /** The text of the question's first correct option (`correctOption?.text`). */
  function CorrectText(q: Question): (r: Option<string>)
    ensures r.None? <==> forall j :: 0 <= j < |q.options| ==> !q.options[j].isCorrect
    ensures r.Some? ==> exists j :: 0 <= j < |q.options| && q.options[j].isCorrect && q.options[j].text == r.value
                                    && forall k :: 0 <= k < j ==> !q.options[k].isCorrect
  {
    match FirstCorrect(q.options)
    case None => None
    case Some(o) => Some(o.text)
  }

  /** One review entry, built from a stored answer, its question and its selected option. */
  function Evaluate(db: Db, ans: StoredAnswer): (e: Evaluated)
    requires ans.questionId in db.questions && ans.selectedOptionId in db.options
    ensures var q := db.questions[ans.questionId];
            && e.questionId == ans.questionId && e.questionText == q.text && e.review == q.review
            && e.options == q.options && e.correctAnswer == CorrectText(q)
    ensures var o := db.options[ans.selectedOptionId];
            && e.selectedOption == o.text && e.isCorrect == o.isCorrect
            && e.scoreImpact == Impact(o)
            && (e.scoreImpact == 10 <==> o.isCorrect) && (e.scoreImpact == -4 <==> !o.isCorrect)
  {
    var q := db.questions[ans.questionId];
    var o := db.options[ans.selectedOptionId];
    Evaluated(ans.questionId, q.text, q.review, o.text, CorrectText(q), o.isCorrect,
              if o.isCorrect then 10 else -4, q.options)
  }

  /** `(score / (answered * 10)) * 100` before `toFixed(2)`; `None` stands for the
      non-finite result of a division by zero when no answer is stored. */
  function Percentage(score: int, answered: nat): (r: Option<real>)
    ensures r.None? <==> answered == 0
    ensures r.Some? ==> r.value * (answered * 10) as real == score as real * 100.0
  {
    if answered == 0 then None
    else Some((score as real / (answered * 10) as real) * 100.0)
  }

  /** `getQuizAttempDetails`: a 404 when the user has no attempt at the quiz (COMPLETED is
      not required); otherwise one entry per stored answer, in order, whose impact is +10
      exactly when the selected option is correct and -4 otherwise, the stored score as
      the total, and the percentage over the stored answers. */
  function GetAttemptDetails(db: Db, userId: Id, quizId: Id): (r: Result<AttemptDetails, HttpError>)
    requires Wf(db)
    ensures AttemptKey(userId, quizId) !in db.attempts ==> r == Err(NoAttempt)
    ensures AttemptKey(userId, quizId) in db.attempts ==>
      var a := db.attempts[AttemptKey(userId, quizId)];
      && r.Ok?
      && r.value.totalScore == a.score
      && r.value.quizName == db.quizzes[quizId].name && r.value.quizTopic == db.quizzes[quizId].topic
      && r.value.percentage == Percentage(a.score, |a.answers|)
      && |r.value.evaluatedAnswers| == |a.answers|
      && forall i :: 0 <= i < |a.answers| ==>
           var e := r.value.evaluatedAnswers[i];
           var o := db.options[a.answers[i].selectedOptionId];
           && e.questionId == a.answers[i].questionId
           && e.selectedOption == o.text && e.isCorrect == o.isCorrect
           && (e.scoreImpact == 10 <==> o.isCorrect) && (e.scoreImpact == -4 <==> !o.isCorrect)
           && e.correctAnswer == CorrectText(db.questions[a.answers[i].questionId])
           && e == Evaluate(db, a.answers[i])
  {
    var key := AttemptKey(userId, quizId);
    if key !in db.attempts then Err(NoAttempt)
    else
      var a := db.attempts[key];
      assert AnswersResolve(db, a.answers);
      var evaluated := seq(|a.answers|, i requires 0 <= i < |a.answers| => Evaluate(db, a.answers[i]));
      var quiz := db.quizzes[quizId];
      Ok(AttemptDetails(quiz.name, quiz.topic, a.score, Percentage(a.score, |evaluated|), evaluated))
  }

  /** The sum of the entries' score impacts. */
  function SumOfImpacts(es: seq<Evaluated>): int {
    if es == [] then 0 else SumOfImpacts(es[..|es| - 1]) + es[|es| - 1].scoreImpact
  }

  /** Review entries built from stored rows add up to those rows' points. */
  lemma {:induction false} EvaluatedSum(db: Db, stored: seq<StoredAnswer>, es: seq<Evaluated>)
    requires OptionsResolve(db.options, stored) && QuestionsResolve(db, stored)
    requires |es| == |stored|
    requires forall i :: 0 <= i < |es| ==> es[i].scoreImpact == Impact(db.options[stored[i].selectedOptionId])
    ensures SumOfImpacts(es) == ImpactSum(db.options, stored)
  {
    if es != [] {
      EvaluatedSum(db, stored[..|stored| - 1], es[..|es| - 1]);
    }
  }

  /** Right after a submit that got through, the review's entries add up to the reported
      total, which is the score the submit returned; with k > 0 stored rows that score
      lies in [-4k, 10k] and the percentage in [-40, 100]. */
  lemma ReviewAfterSubmit(db: Db, userId: Id, quizId: Id, answers: seq<AnswerInput>)
    requires Wf(db)
    requires AttemptKey(userId, quizId) in db.attempts
    requires QuestionsResolve(db, Resolved(db.options, answers))
    ensures var key := AttemptKey(userId, quizId);
            var stored := Resolved(db.options, answers);
            var score := ImpactSum(db.options, stored);
            var db' := Closed(db, key, stored, score);
            && Wf(db')
            && GetAttemptDetails(db', userId, quizId).Ok?
            && var d := GetAttemptDetails(db', userId, quizId).value;
            && d.totalScore == score == SumOfImpacts(d.evaluatedAnswers)
            && |d.evaluatedAnswers| == |stored| <= |answers|
            && -4 * |stored| <= score <= 10 * |stored|
            && (|stored| > 0 ==> d.percentage.Some? && -40.0 <= d.percentage.value <= 100.0)
  {
    var key := AttemptKey(userId, quizId);
    var stored := Resolved(db.options, answers);
    var score := ImpactSum(db.options, stored);
    var db' := Closed(db, key, stored, score);
    ReplacingAnswersKeepsWf(db, key, stored, score);
    var d := GetAttemptDetails(db', userId, quizId).value;
    EvaluatedSum(db', stored, d.evaluatedAnswers);
    ScoreBreakdown(db.options, stored);
    if |stored| > 0 {
      PercentageBounds(score, |stored|);
    }
  }

  /** A score in [-4k, 10k] over k > 0 answers is a percentage in [-40, 100]. */
  lemma PercentageBounds(score: int, k: nat)
    requires k > 0 && -4 * k <= score <= 10 * k
    ensures Percentage(score, k).Some?
    ensures -40.0 <= Percentage(score, k).value <= 100.0
  {
    var d := (k * 10) as real;
    var q := score as real / d;
    assert q * d == score as real;
    assert q <= 1.0;
    assert q >= -0.4;
  }
}

=== FILE: catalog.dfy ===
/** Quiz creation and search (server/src/controllers/quiz.controller.ts, `createQuiz`
    and `getAllQuizzes`). */
module Catalog {
  import opened Outcomes
  import opened Http
  import opened Text
  import opened Store

  /** The request body of `createQuiz`. An absent `name`, `topic`, `description` or
      `review` behaves exactly like the empty string and is written as one; `tags` and
      `questions` are `None` when absent or not an array. Every present field is assumed
      well-typed: texts, names, topics and tags are strings and `isCorrect` is a boolean. */
  datatype OptionInput = OptionInput(text: string, isCorrect: bool)
  datatype QuestionInput = QuestionInput(text: string, review: string, options: seq<OptionInput>)
  datatype QuizInput = QuizInput(name: string, description: string, topic: string,
                                 tags: Option<seq<string>>, questions: Option<seq<QuestionInput>>)

  const FieldsRequired := HttpError(400, "All fields are required!")
  const NoQuestions := HttpError(400, "Quiz must have at least one question.")
  const MalformedQuestion :=
    HttpError(400, "Each question must have at least 2 options and exactly 1 correct answer.")
  const CreationFailed := HttpError(500, "Quiz creation failed")

  /** The positions of the options marked correct. */
  function CorrectPositions(opts: seq<OptionInput>): set<nat> {
    set i: nat | i < |opts| && opts[i].isCorrect
  }

  /** `options.filter((opt) => opt.isCorrect).length`: the number of positions whose
      option is marked correct. */
  function CountCorrect(opts: seq<OptionInput>): (n: nat)
    ensures n == |CorrectPositions(opts)|
    ensures n <= |opts|
    ensures n == 0 <==> forall i :: 0 <= i < |opts| ==> !opts[i].isCorrect
  {
    if opts == [] then 0
    else
      var last := |opts| - 1;
      var init := opts[..last];
      assert CorrectPositions(opts) ==
        CorrectPositions(init) + (if opts[last].isCorrect then {last} else {});
      assert last !in CorrectPositions(init);
      CountCorrect(init) + (if opts[last].isCorrect then 1 else 0)
  }

  /** The option at `c` is the only one marked correct. */
  ghost predicate CorrectOnlyAt(opts: seq<OptionInput>, c: int) {
    0 <= c < |opts| && forall i :: 0 <= i < |opts| ==> (opts[i].isCorrect <==> i == c)
  }

  /** Exactly one option is counted correct iff some index is correct and every other
      index is not. */
  lemma ExactlyOneCorrect(opts: seq<OptionInput>)
    ensures CountCorrect(opts) == 1 <==> exists c :: CorrectOnlyAt(opts, c)
  {
    if CountCorrect(opts) == 1 {
      var c :| c in CorrectPositions(opts);
      assert |CorrectPositions(opts) - {c}| == 0;
      assert CorrectOnlyAt(opts, c);
    }
    if exists c :: CorrectOnlyAt(opts, c) {
      var c :| CorrectOnlyAt(opts, c);
      assert CorrectPositions(opts) == {c};
    }
  }

  /** The per-question structural rule: at least two options, exactly one correct. */
  predicate WellFormedQuestion(q: QuestionInput) {
    |q.options| >= 2 && CountCorrect(q.options) == 1
  }

  /** The checks `createQuiz` makes before touching the store, in the source's order. */
  function ValidateQuiz(input: QuizInput): (r: Result<seq<QuestionInput>, HttpError>)
    ensures r.Ok? <==>
      && input.name != "" && input.topic != ""
      && input.questions.Some? && |input.questions.value| > 0
      && forall i :: 0 <= i < |input.questions.value| ==> WellFormedQuestion(input.questions.value[i])
    ensures r.Ok? ==> r.value == input.questions.value
    ensures (input.name == "" || input.topic == "") ==> r == Err(FieldsRequired)
    ensures (input.name != "" && input.topic != "" && (input.questions.None? || input.questions.value == []))
              ==> r == Err(NoQuestions)
    ensures (&& input.name != "" && input.topic != "" && input.questions.Some?
             && exists i :: 0 <= i < |input.questions.value| && !WellFormedQuestion(input.questions.value[i]))
              ==> r == Err(MalformedQuestion)
  {
    if input.name == "" || input.topic == "" then Err(FieldsRequired)
    else if input.questions.None? || |input.questions.value| <= 0 then Err(NoQuestions)
    else if exists i :: 0 <= i < |input.questions.value| && !WellFormedQuestion(input.questions.value[i]) then
      Err(MalformedQuestion)
    else Ok(input.questions.value)
  }

  /** `q.review || null`. */
  function ReviewOf(review: string): (r: Option<string>)
    ensures r.None? <==> review == ""
    ensures r.Some? ==> r.value == review
  {
    if review == "" then None else Some(review)
  }

  /** A stored question carries the submitted text, review and options, in order. */
  ghost predicate SameQuestion(row: Question, q: QuestionInput) {
    && row.text == q.text && row.review == ReviewOf(q.review)
    && |row.options| == |q.options|
    && forall j :: 0 <= j < |q.options| ==>
         row.options[j].text == q.options[j].text && row.options[j].isCorrect == q.options[j].isCorrect
  }

  /** The question's id and all its option ids lie in [lo, hi). */
  ghost predicate IdsWithin(row: Question, lo: int, hi: int) {
    && lo <= row.id < hi
    && forall j :: 0 <= j < |row.options| ==> lo <= row.options[j].id < hi
  }

  /** Option rows for a question, with fresh ids `next`, `next + 1`, ... */
  function OptionRows(opts: seq<OptionInput>, next: Id): (rows: seq<OptionRow>)
    ensures |rows| == |opts|
    ensures forall j :: 0 <= j < |opts| ==>
      rows[j].id == next + j && rows[j].text == opts[j].text && rows[j].isCorrect == opts[j].isCorrect
  {
    seq(|opts|, j requires 0 <= j < |opts| => OptionRow(next + j, opts[j].text, opts[j].isCorrect))
  }

  /** How many ids the nested `create` of these questions consumes. */
  function IdsNeeded(qs: seq<QuestionInput>): nat {
    if qs == [] then 0 else 1 + |qs[0].options| + IdsNeeded(qs[1..])
  }

  /** The question rows the nested `create` writes, with fresh ids from `next` on. */
  function QuestionRows(qs: seq<QuestionInput>, next: Id): (rows: seq<Question>)
    ensures |rows| == |qs|
    ensures forall i :: 0 <= i < |qs| ==> SameQuestion(rows[i], qs[i])
    ensures forall i :: 0 <= i < |rows| ==> IdsWithin(rows[i], next, next + IdsNeeded(qs))
  {
    if qs == [] then []
    else
      var q := qs[0];
      var first := Question(next, q.text, ReviewOf(q.review), OptionRows(q.options, next + 1));
      var rest := QuestionRows(qs[1..], next + 1 + |q.options|);
      assert IdsWithin(first, next, next + IdsNeeded(qs));
      assert forall i :: 0 <= i < |rest| ==> IdsWithin(rest[i], next, next + IdsNeeded(qs));
      [first] + rest
  }

  function QuestionIds(rows: seq<Question>): set<Id> {
    set i | 0 <= i < |rows| :: rows[i].id
  }

  function OptionIds(opts: seq<OptionRow>): set<Id> {
    set j | 0 <= j < |opts| :: opts[j].id
  }

  function AllOptionIds(rows: seq<Question>): set<Id> {
    if rows == [] then {} else OptionIds(rows[0].options) + AllOptionIds(rows[1..])
  }

  /** Adds the question rows to the question table; keys not among them keep their rows. */
  function IndexQuestions(rows: seq<Question>, table: map<Id, Question>): (r: map<Id, Question>)
    ensures r.Keys == table.Keys + QuestionIds(rows)
    ensures forall k :: k in table && k !in QuestionIds(rows) ==> r[k] == table[k]
  {
    if rows == [] then table
    else
      assert QuestionIds(rows) == {rows[0].id} + QuestionIds(rows[1..]) by {
        forall k | k in QuestionIds(rows) ensures k in {rows[0].id} + QuestionIds(rows[1..]) {
          var i :| 0 <= i < |rows| && rows[i].id == k;
          if i > 0 { assert rows[1..][i - 1].id == k; }
        }
        forall k | k in QuestionIds(rows[1..]) ensures k in QuestionIds(rows) {
          var i :| 0 <= i < |rows[1..]| && rows[1..][i].id == k;
          assert rows[i + 1].id == k;
        }
      }
      IndexQuestions(rows[1..], table[rows[0].id := rows[0]])
  }

  /** Adds option rows to the option table; keys not among them keep their rows. */
  function IndexOptionList(opts: seq<OptionRow>, table: map<Id, OptionRow>): (r: map<Id, OptionRow>)
    ensures r.Keys == table.Keys + OptionIds(opts)
    ensures forall k :: k in table && k !in OptionIds(opts) ==> r[k] == table[k]
  {
    if opts == [] then table
    else
      assert OptionIds(opts) == {opts[0].id} + OptionIds(opts[1..]) by {
        forall k | k in OptionIds(opts) ensures k in {opts[0].id} + OptionIds(opts[1..]) {
          var j :| 0 <= j < |opts| && opts[j].id == k;
          if j > 0 { assert opts[1..][j - 1].id == k; }
        }
        forall k | k in OptionIds(opts[1..]) ensures k in OptionIds(opts) {
          var j :| 0 <= j < |opts[1..]| && opts[1..][j].id == k;
          assert opts[j + 1].id == k;
        }
      }
      IndexOptionList(opts[1..], table[opts[0].id := opts[0]])
  }

  /** Adds the options of every question row to the option table. */
  function IndexOptions(rows: seq<Question>, table: map<Id, OptionRow>): (r: map<Id, OptionRow>)
    ensures r.Keys == table.Keys + AllOptionIds(rows)
    ensures forall k :: k in table && k !in AllOptionIds(rows) ==> r[k] == table[k]
  {
    if rows == [] then table
    else IndexOptions(rows[1..], IndexOptionList(rows[0].options, table))
  }

  /** Every id the new rows use lies in [lo, hi). */
  lemma {:induction false} NewIdsWithin(rows: seq<Question>, lo: int, hi: int)
    requires forall i :: 0 <= i < |rows| ==> IdsWithin(rows[i], lo, hi)
    ensures forall k :: k in QuestionIds(rows) ==> lo <= k < hi
    ensures forall k :: k in AllOptionIds(rows) ==> lo <= k < hi
  {
    if rows != [] {
      NewIdsWithin(rows[1..], lo, hi);
      assert IdsWithin(rows[0], lo, hi);
    }
  }

  /** The nested write: the quiz row, its question and option rows, and its tag names. */
  function InsertQuiz(db: Db, quiz: Quiz, nextId: Id): Db {
    db.(quizzes := db.quizzes[quiz.id := quiz],
        questions := IndexQuestions(quiz.questions, db.questions),
        options := IndexOptions(quiz.questions, db.options),
        tags := db.tags + quiz.tags,
        nextId := nextId)
  }

  /** No option id repeats later in the list. */
  ghost predicate OptionIdsFresh(opts: seq<OptionRow>) {
    opts != [] ==> opts[0].id !in OptionIds(opts[1..]) && OptionIdsFresh(opts[1..])
  }

  /** No question id, and no option id, repeats later in the rows. */
  ghost predicate RowIdsFresh(rows: seq<Question>) {
    rows != [] ==>
      && rows[0].id !in QuestionIds(rows[1..])
      && (forall j :: 0 <= j < |rows[0].options| ==> rows[0].options[j].id !in AllOptionIds(rows[1..]))
      && OptionIdsFresh(rows[0].options)
      && RowIdsFresh(rows[1..])
  }

  lemma {:induction false} OptionRowsFresh(opts: seq<OptionInput>, next: Id)
    ensures OptionIdsFresh(OptionRows(opts, next))
  {
    var rows := OptionRows(opts, next);
    if opts != [] {
      assert rows[1..] == OptionRows(opts[1..], next + 1);
      OptionRowsFresh(opts[1..], next + 1);
      assert next !in OptionIds(rows[1..]);
    }
  }

  /** The rows of a nested write use every id at most once. */
  lemma {:induction false} QuestionRowsFresh(qs: seq<QuestionInput>, next: Id)
    ensures RowIdsFresh(QuestionRows(qs, next))
  {
    var rows := QuestionRows(qs, next);
    if qs != [] {
      var next' := next + 1 + |qs[0].options|;
      var rest := QuestionRows(qs[1..], next');
      assert rows[1..] == rest;
      assert rows[0].options == OptionRows(qs[0].options, next + 1);
      QuestionRowsFresh(qs[1..], next');
      OptionRowsFresh(qs[0].options, next + 1);
      NewIdsWithin(rest, next', next' + IdsNeeded(qs[1..]));
    }
  }

  /** Indexing option rows that use every id once stores each row under its own id. */
  lemma {:induction false} OptionListIndexed(opts: seq<OptionRow>, table: map<Id, OptionRow>)
    requires OptionIdsFresh(opts)
    ensures var r := IndexOptionList(opts, table);
            forall j :: 0 <= j < |opts| ==> opts[j].id in r && r[opts[j].id] == opts[j]
  {
    if opts != [] {
      OptionListIndexed(opts[1..], table[opts[0].id := opts[0]]);
      assert forall j :: 0 < j < |opts| ==> opts[j] == opts[1..][j - 1];
    }
  }

  /** Indexing question rows that use every id once stores each row under its own id. */
  lemma {:induction false} QuestionsIndexed(rows: seq<Question>, table: map<Id, Question>)
    requires RowIdsFresh(rows)
    ensures var r := IndexQuestions(rows, table);
            forall i :: 0 <= i < |rows| ==> rows[i].id in r && r[rows[i].id] == rows[i]
  {
    if rows != [] {
      QuestionsIndexed(rows[1..], table[rows[0].id := rows[0]]);
      assert forall i :: 0 < i < |rows| ==> rows[i] == rows[1..][i - 1];
    }
  }

  /** Indexing the options of rows that use every id once stores each option row under
      its own id. */
  lemma {:induction false} OptionsIndexed(rows: seq<Question>, table: map<Id, OptionRow>)
    requires RowIdsFresh(rows)
    ensures var r := IndexOptions(rows, table);
            forall i, j :: 0 <= i < |rows| && 0 <= j < |rows[i].options| ==>
              rows[i].options[j].id in r && r[rows[i].options[j].id] == rows[i].options[j]
  {
    if rows != [] {
      var first := IndexOptionList(rows[0].options, table);
      OptionListIndexed(rows[0].options, table);
      OptionsIndexed(rows[1..], first);
      assert forall i :: 0 < i < |rows| ==> rows[i] == rows[1..][i - 1];
    }
  }

  /** Inserting a quiz whose ids are all fresh keeps the store's integrity; in particular
      no question or option that an existing answer points at is overwritten. */
  lemma InsertQuizKeepsWf(db: Db, quiz: Quiz, nextId: Id)
    requires quiz.id == db.nextId < nextId
    requires forall i :: 0 <= i < |quiz.questions| ==> IdsWithin(quiz.questions[i], db.nextId + 1, nextId)
    ensures Wf(db) ==> Wf(InsertQuiz(db, quiz, nextId))
  {
    if Wf(db) {
      var d := InsertQuiz(db, quiz, nextId);
      NewIdsWithin(quiz.questions, db.nextId + 1, nextId);
      assert forall k :: k in d.questions ==> k < d.nextId;
      assert forall k :: k in d.options ==> k < d.nextId;
      forall key | key in d.attempts
        ensures AnswersResolve(d, d.attempts[key].answers)
      {
        assert AnswersResolve(db, db.attempts[key].answers);
      }
    }
  }

  /** `d`'s question table is `db`'s plus exactly the quiz's question rows, each under
      its own id, and those ids are fresh. */
  ghost predicate AddsQuestionRows(db: Db, quiz: Quiz, d: Db) {
    && d.questions.Keys == db.questions.Keys + QuestionIds(quiz.questions)
    && (forall k :: k in QuestionIds(quiz.questions) ==> db.nextId < k < d.nextId)
    && (forall i :: 0 <= i < |quiz.questions| ==>
          quiz.questions[i].id in d.questions && d.questions[quiz.questions[i].id] == quiz.questions[i])
  }

  /** `d`'s option table is `db`'s plus exactly the quiz's option rows, each under its own
      id, and those ids are fresh. */
  ghost predicate AddsOptionRows(db: Db, quiz: Quiz, d: Db) {
    && d.options.Keys == db.options.Keys + AllOptionIds(quiz.questions)
    && (forall k :: k in AllOptionIds(quiz.questions) ==> db.nextId < k < d.nextId)
    && (forall i, j :: 0 <= i < |quiz.questions| && 0 <= j < |quiz.questions[i].options| ==>
          quiz.questions[i].options[j].id in d.options
          && d.options[quiz.questions[i].options[j].id] == quiz.questions[i].options[j])
  }

  /** Every row of `db`'s question and option tables is still in `d`, unchanged. */
  ghost predicate KeepsRows(db: Db, d: Db) {
    && (forall k :: k in db.questions ==> k in d.questions && d.questions[k] == db.questions[k])
    && (forall k :: k in db.options ==> k in d.options && d.options[k] == db.options[k])
  }

  /** The nested write adds exactly the quiz's question rows. */
  lemma InsertQuizQuestions(db: Db, quiz: Quiz, nextId: Id)
    requires RowIdsFresh(quiz.questions)
    requires forall i :: 0 <= i < |quiz.questions| ==> IdsWithin(quiz.questions[i], db.nextId + 1, nextId)
    ensures AddsQuestionRows(db, quiz, InsertQuiz(db, quiz, nextId))
  {
    NewIdsWithin(quiz.questions, db.nextId + 1, nextId);
    QuestionsIndexed(quiz.questions, db.questions);
  }

  /** The nested write adds exactly the quiz's option rows. */
  lemma InsertQuizOptions(db: Db, quiz: Quiz, nextId: Id)
    requires RowIdsFresh(quiz.questions)
    requires forall i :: 0 <= i < |quiz.questions| ==> IdsWithin(quiz.questions[i], db.nextId + 1, nextId)
    ensures AddsOptionRows(db, quiz, InsertQuiz(db, quiz, nextId))
  {
    NewIdsWithin(quiz.questions, db.nextId + 1, nextId);
    OptionsIndexed(quiz.questions, db.options);
  }

  /** On a well-formed store the nested write overwrites no question or option row. */
  lemma InsertQuizKeepsRows(db: Db, quiz: Quiz, nextId: Id)
    requires forall i :: 0 <= i < |quiz.questions| ==> IdsWithin(quiz.questions[i], db.nextId + 1, nextId)
    ensures Wf(db) ==> KeepsRows(db, InsertQuiz(db, quiz, nextId))
  {
    NewIdsWithin(quiz.questions, db.nextId + 1, nextId);
  }

  /** The quiz row `createQuiz` writes for validated questions `qs`. */
  function NewQuiz(db: Db, input: QuizInput, qs: seq<QuestionInput>, creatorId: Id): (quiz: Quiz)
    requires input.tags.Some?
    ensures |quiz.questions| == |qs|
    ensures forall i :: 0 <= i < |qs| ==> SameQuestion(quiz.questions[i], qs[i])
    ensures forall i :: 0 <= i < |qs| ==>
      IdsWithin(quiz.questions[i], db.nextId + 1, db.nextId + 1 + IdsNeeded(qs))
    ensures RowIdsFresh(quiz.questions)
  {
    QuestionRowsFresh(qs, db.nextId + 1);
    Quiz(db.nextId, input.name, input.description, input.topic, creatorId,
         QuestionRows(qs, db.nextId + 1), set t | t in input.tags.value)
  }

  /** `createQuiz`: the 400 checks, then one nested write of the quiz, its questions and
      options (fresh ids) and its tags (created or reused by name). A missing `tags`
      array throws inside the write's `try` and becomes a 500. Nothing is written on
      any error. */
  function CreateQuiz(db: Db, input: QuizInput, creatorId: Id): (h: Handled<Quiz>)
    ensures ValidateQuiz(input).Err? ==> h == Handled(db, Err(ValidateQuiz(input).error))
    ensures ValidateQuiz(input).Ok? && input.tags.None? ==> h == Handled(db, Err(CreationFailed))
    ensures h.outcome.Ok? <==> ValidateQuiz(input).Ok? && input.tags.Some?
    ensures h.outcome.Ok? ==>
      var quiz := h.outcome.value;
      && quiz.id == db.nextId
      && quiz.name == input.name && quiz.description == input.description
      && quiz.topic == input.topic && quiz.createdById == creatorId
      && |quiz.questions| == |input.questions.value|
      && (forall i :: 0 <= i < |quiz.questions| ==> SameQuestion(quiz.questions[i], input.questions.value[i]))
      && (forall t :: t in quiz.tags <==> t in input.tags.value)
      && h.db.quizzes == db.quizzes[quiz.id := quiz]
      && h.db.tags == db.tags + quiz.tags
      && h.db.users == db.users && h.db.attempts == db.attempts
      && h.db.nextId == db.nextId + 1 + IdsNeeded(input.questions.value)
    ensures h.outcome.Ok? ==> AddsQuestionRows(db, h.outcome.value, h.db)
    ensures h.outcome.Ok? ==> AddsOptionRows(db, h.outcome.value, h.db)
    ensures Wf(db) ==> KeepsRows(db, h.db)
    ensures Wf(db) ==> Wf(h.db)
  {
    match ValidateQuiz(input)
    case Err(e) => Handled(db, Err(e))
    case Ok(qs) =>
      if input.tags.None? then Handled(db, Err(CreationFailed))
      else
        var next := db.nextId + 1 + IdsNeeded(qs);
        var quiz := NewQuiz(db, input, qs, creatorId);
        InsertQuizKeepsWf(db, quiz, next);
        InsertQuizQuestions(db, quiz, next);
        InsertQuizOptions(db, quiz, next);
        InsertQuizKeepsRows(db, quiz, next);
        Handled(InsertQuiz(db, quiz, next), Ok(quiz))
  }

  /** A quiz summary as listed: tags, creator name and the number of questions, never the
      options or their correctness. */
  datatype QuizSummary = QuizSummary(id: Id, name: string, tags: set<string>, topic: string,
                                     createdBy: Option<string>, questionCount: nat)

  /** The name of the first user row with that id, if there is one. */
  function CreatorName(db: Db, userId: Id): (r: Option<string>)
    ensures r.None? <==> forall i :: 0 <= i < |db.users| ==> db.users[i].id != userId
    ensures r.Some? ==> exists i :: 0 <= i < |db.users| && db.users[i].id == userId && db.users[i].name == r.value
                                    && forall j :: 0 <= j < i ==> db.users[j].id != userId
  {
    match FindUser(db.users, ById(userId))
    case None => None
    case Some(u) => Some(u.name)
  }

  function Summarize(db: Db, id: Id): (s: QuizSummary)
    requires id in db.quizzes
    ensures s.id == id && s.questionCount == |db.quizzes[id].questions|
    ensures var q := db.quizzes[id];
            && s.name == q.name && s.topic == q.topic && s.tags == q.tags
            && s.createdBy == CreatorName(db, q.createdById)
  {
    var q := db.quizzes[id];
    QuizSummary(id, q.name, q.tags, q.topic, CreatorName(db, q.createdById), |q.questions|)
  }

  /** A listed summary reveals nothing of a quiz's questions but their number: replacing
      them by as many other questions leaves the summary as it was. */
  lemma SummaryHidesQuestions(db: Db, id: Id, qs: seq<Question>)
    requires id in db.quizzes && |qs| == |db.quizzes[id].questions|
    ensures Summarize(db.(quizzes := db.quizzes[id := db.quizzes[id].(questions := qs)]), id) == Summarize(db, id)
  {
  }

  /** A search term filters only when present and non-empty. */
  predicate Filtering(searchTerm: Option<string>) {
    searchTerm.Some? && |searchTerm.value| > 0
  }

  /** The `OR` of the three case-insensitive `contains` conditions. */
  predicate MatchesTerm(q: Quiz, term: string) {
    || ContainsIgnoringCase(q.name, term)
    || ContainsIgnoringCase(q.description, term)
    || exists t :: t in q.tags && ContainsIgnoringCase(t, term)
  }

  /** The search condition stated with occurrences rather than a search procedure. */
  ghost predicate TermOccursIn(q: Quiz, term: string) {
    || IsInfix(Lower(term), Lower(q.name))
    || IsInfix(Lower(term), Lower(q.description))
    || exists t :: t in q.tags && IsInfix(Lower(term), Lower(t))
  }

  /** `getAllQuizzes`: with no or an empty term, every quiz; otherwise exactly the quizzes
      whose name, description or some tag contains the term, ignoring case. */
  function ListQuizzes(db: Db, searchTerm: Option<string>): (r: set<QuizSummary>)
    ensures forall s :: s in r ==> s.id in db.quizzes && s == Summarize(db, s.id)
    ensures forall id :: id in db.quizzes ==>
      (Summarize(db, id) in r <==> !Filtering(searchTerm) || TermOccursIn(db.quizzes[id], searchTerm.value))
  {
    set id | id in db.quizzes && (!Filtering(searchTerm) || MatchesTerm(db.quizzes[id], searchTerm.value))
      :: Summarize(db, id)
  }

  /** A quiz whose tag matches the term is listed even when its name and description do not. */
  lemma TagMatchIsListed(db: Db, id: Id, term: string, tag: string)
    requires id in db.quizzes && tag in db.quizzes[id].tags
    requires term != "" && ContainsIgnoringCase(tag, term)
    ensures Summarize(db, id) in ListQuizzes(db, Some(term))
  {
  }
}

=== FILE: guard.dfy ===
/** The authentication middleware (server/src/middlewares/auth.middleware.ts): where the
    bearer token is taken from, the 401 exits of `verifyJwtToken`, and `isAdmin`.
    Signature checking by `jwt.verify` is a function parameter `verify`. */
module Guard {
  import opened Outcomes
  import opened Http
  import opened Text
  import opened Store

  const BearerPrefix := "Bearer "

  /** The token carried by an `Authorization` header: present only when the header starts
      with "Bearer ", and then the second space-separated field, i.e. the text after the
      prefix up to the next space ("Bearer a b" gives "a", "Bearer " gives ""). */
  function HeaderToken(header: Option<string>): (r: Option<string>)
    ensures r.Some? <==> header.Some? && StartsWith(header.value, BearerPrefix)
    ensures r.Some? ==>
      var h, t := header.value, r.value;
      && ' ' !in t
      && |BearerPrefix| + |t| <= |h|
      && h[..|BearerPrefix| + |t|] == BearerPrefix + t
      && (|BearerPrefix| + |t| == |h| || h[|BearerPrefix| + |t|] == ' ')
  {
    if header.Some? && StartsWith(header.value, BearerPrefix) then
      var h := header.value;
      assert h == "Bearer" + [' '] + h[7..];
      SplitAfterPiece("Bearer", ' ', h[7..]);
      var t := Split(h, ' ')[1];
      assert t == Split(h[7..], ' ')[0];
      assert h[..7 + |t|] == BearerPrefix + h[7..][..|t|];
      Some(t)
    else
      None
  }

  /** `getToken`: a non-empty cookie token wins; otherwise the header token (an empty
      cookie is falsy and falls through). */
  function GetToken(cookie: Option<string>, header: Option<string>): (r: Option<string>)
    ensures cookie.Some? && cookie.value != "" ==> r == cookie
    ensures (cookie.None? || cookie.value == "") ==> r == HeaderToken(header)
  {
    if cookie.Some? && cookie.value != "" then cookie else HeaderToken(header)
  }

  /** What `jwt.verify` hands its callback: an error, a string payload, or an object
      payload with or without an `id` claim. */
  datatype Decoded = VerifyFailed | StringPayload(text: string) | ObjectPayload(id: Option<Id>)

  const NoToken := HttpError(401, "Unauthorized Access.")
  const BadToken := HttpError(401, "Unauthorized access")
  const NoSuchUser := HttpError(401, "Unauthorized Access")
  const AdminOnly := HttpError(403, "Admin access only!")

  /** `verifyJwtToken`: the user the request is authenticated as, or a 401. */
  function VerifyJwtToken(db: Db, cookie: Option<string>, header: Option<string>,
                          verify: string -> Decoded): (r: Result<UserRow, HttpError>)
    ensures var token := GetToken(cookie, header);
            (token.None? || token.value == "") ==> r == Err(NoToken)
    ensures r.Err? ==> r.error.statusCode == 401
    ensures r.Ok? <==>
      var token := GetToken(cookie, header);
      && token.Some? && token.value != ""
      && verify(token.value).ObjectPayload? && verify(token.value).id.Some?
      && exists i :: 0 <= i < |db.users| && db.users[i].id == verify(token.value).id.value
    ensures r.Ok? ==> r.value in db.users && r.value.id == verify(GetToken(cookie, header).value).id.value
  {
    var token := GetToken(cookie, header);
    if token.None? || token.value == "" then Err(NoToken)
    else
      match verify(token.value)
      case VerifyFailed => Err(BadToken)
      case StringPayload(_) => Err(BadToken)
      case ObjectPayload(None) => Err(BadToken)
      case ObjectPayload(Some(id)) =>
        match FindUser(db.users, ById(id))
        case None => Err(NoSuchUser)
        case Some(u) => Ok(u)
  }

  /** `isAdmin`: passes exactly when a user is present and has role ADMIN; otherwise 403. */
  function IsAdmin(user: Option<UserRow>): (r: Result<UserRow, HttpError>)
    ensures r.Ok? <==> user.Some? && user.value.role == Admin
    ensures r.Ok? ==> r.value == user.value
    ensures r.Err? ==> r.error == AdminOnly
  {
    if user.None? || user.value.role != Admin then Err(AdminOnly) else Ok(user.value)
  }

  /** A missing or empty token is refused before the token is verified or the store is
      read: the outcome is the same whatever the verifier and the store are. */
  lemma MissingTokenRefusedFirst(db1: Db, db2: Db, cookie: Option<string>, header: Option<string>,
                                 verify1: string -> Decoded, verify2: string -> Decoded)
    requires GetToken(cookie, header).None? || GetToken(cookie, header).value == ""
    ensures VerifyJwtToken(db1, cookie, header, verify1) == VerifyJwtToken(db2, cookie, header, verify2)
  {
  }

  /** A non-empty cookie token takes precedence over any header. */
  lemma CookieWins(cookie: string, header1: Option<string>, header2: Option<string>)
    requires cookie != ""
    ensures GetToken(Some(cookie), header1) == GetToken(Some(cookie), header2) == Some(cookie)
  {
  }

  /** An admin route (`verifyJwtToken` then `isAdmin`) lets a request through exactly
      when its token decodes to the id of an ADMIN user in the store. */
  lemma AdminRouteAccess(db: Db, cookie: Option<string>, header: Option<string>, verify: string -> Decoded)
    ensures var v := VerifyJwtToken(db, cookie, header, verify);
            (v.Ok? && IsAdmin(Some(v.value)).Ok?) <==>
              var token := GetToken(cookie, header);
              && token.Some? && token.value != ""
              && verify(token.value).ObjectPayload? && verify(token.value).id.Some?
              && FindUser(db.users, ById(verify(token.value).id.value)).Some?
              && FindUser(db.users, ById(verify(token.value).id.value)).value.role == Admin
  {
  }
}

=== FILE: http.dfy ===
/** The error value every handler hands to `next` (server/src/utils/errorHandler.utils.ts)
    and the single error-envelope middleware that turns it into a response (server/src/app.ts). */
module Http {

  /** `HTTPError`: an `Error` carrying a status code. The status is stored as given,
      with no range check, so 0 or a negative number is kept too. */
  datatype HttpError = HttpError(statusCode: int, message: string)

  /** `errorHandler(statusCode = 500, msg = "")`. */
  function ErrorHandler(statusCode: int := 500, msg: string := ""): (e: HttpError)
    ensures e.statusCode == statusCode
    ensures e.message == msg
  {
    HttpError(statusCode, msg)
  }

  const GenericMessage := "Internal Server Error"

  /** The JSON error body `{success, status, msg}` together with the HTTP status it is sent with. */
  datatype Envelope = Envelope(httpStatus: int, success: bool, status: int, msg: string)

  /** What goes out for an error: the JSON envelope, or, when the status is not a
      three-digit code, Express's own error page with status 500 (`res.status(status)`
      then makes Node's `writeHead` throw, and that throw reaches Express's final
      handler). */
  datatype Response = Json(env: Envelope) | FallbackPage(httpStatus: int)

  /** A status Node accepts for a response line. */
  predicate SendableStatus(status: int) {
    100 <= status <= 999
  }

  /** The error middleware: a falsy status (0) becomes 500 and an empty message
      becomes the generic one; the body mirrors the HTTP status. */
  function Respond(err: HttpError): (r: Response)
    ensures r.Json? <==> SendableStatus(err.statusCode) || err.statusCode == 0
    ensures r.FallbackPage? ==> r.httpStatus == 500
    ensures r.Json? ==>
      && !r.env.success
      && r.env.status == r.env.httpStatus
      && r.env.httpStatus != 0 && r.env.msg != ""
    ensures r.Json? && err.statusCode != 0 ==> r.env.httpStatus == err.statusCode
    ensures err.statusCode == 0 ==> r.Json? && r.env.httpStatus == 500
    ensures r.Json? && err.message != "" ==> r.env.msg == err.message
    ensures r.Json? && err.message == "" ==> r.env.msg == GenericMessage
  {
    var status := if err.statusCode != 0 then err.statusCode else 500;
    var msg := if err.message != "" then err.message else GenericMessage;
    if SendableStatus(status) then Json(Envelope(status, false, status, msg))
    else FallbackPage(500)
  }

  /** The default error goes out as a 500 with the generic message. */
  lemma DefaultErrorResponse()
    ensures Respond(ErrorHandler()) == Json(Envelope(500, false, 500, GenericMessage))
  {
  }

  /** An error built with a non-zero status and a non-empty message goes out unchanged
      when the status is a three-digit code, and as Express's 500 page otherwise. */
  lemma ExplicitErrorResponse(status: int, msg: string)
    requires status != 0 && msg != ""
    ensures SendableStatus(status) ==> Respond(ErrorHandler(status, msg)) == Json(Envelope(status, false, status, msg))
    ensures !SendableStatus(status) ==> Respond(ErrorHandler(status, msg)) == FallbackPage(500)
  {
  }

  /** Re-raising what an envelope reports reproduces the same response: the envelope
      is a fixed point of build-then-respond. */
  lemma EnvelopeIsFixedPoint(err: HttpError)
    requires Respond(err).Json?
    ensures var env := Respond(err).env; Respond(ErrorHandler(env.status, env.msg)) == Respond(err)
  {
  }
}

=== FILE: outcomes.dfy ===
/** Option and Result values: the model's stand-ins for JavaScript's null/undefined
    and for the `next(error)` exits of the request handlers. */
module Outcomes {

  /** A value that may be absent (`null` or `undefined` in the source). */
  datatype Option<+T> = None | Some(value: T) {

    /** The present value, or `default` when absent (the source's `x ?? default`). */
    function OrElse(default: T): T {
      match this
      case Some(v) => v
      case None => default
    }
  }

  /** Either the successful value of an operation or the error it ends with. */
  datatype Result<+T, +E> = Ok(value: T) | Err(error: E)
}

=== FILE: quizcard.dfy ===
/** The time estimate on a quiz card (client/src/components/QuizCard.tsx): half a minute
    per question, rounded up to whole minutes. */
module QuizCard {
  import opened Outcomes

  /** `Math.ceil((quiz.questionCount || 0) * 0.5)`; a missing count reads as 0. The result
      is the least whole number of minutes not below half the question count. */
  function EstimatedMinutes(questionCount: Option<nat>): (t: nat)
    ensures var n := questionCount.OrElse(0);
            && t as real >= n as real * 0.5
            && (t - 1) as real < n as real * 0.5
            && 2 * t >= n && 2 * t <= n + 1
    ensures questionCount.None? || questionCount == Some(0) ==> t == 0
  {
    var n := questionCount.OrElse(0);
    (n + 1) / 2
  }

  /** More questions never give a shorter estimate. */
  lemma EstimateIsMonotone(m: nat, n: nat)
    requires m <= n
    ensures EstimatedMinutes(Some(m)) <= EstimatedMinutes(Some(n))
  {
  }
}

=== FILE: quizform.dfy ===
/** The quiz-authoring form (client/src/pages/CreateQuiz.tsx): a nested form value, the
    edits its controls make, and the payload it posts. The edits keep every question at
    two or more options with exactly one marked correct, so the server's structural check
    never refuses what the form sends. */
module QuizForm {
  import opened Outcomes
  import opened Text
  import Catalog

  datatype FormOption = FormOption(text: string, isCorrect: bool)
  datatype FormQuestion = FormQuestion(text: string, review: string, options: seq<FormOption>)
  datatype Form = Form(name: string, description: string, topic: string, tags: string,
                       questions: seq<FormQuestion>)

  /** The question the form starts with and `addQuestion` appends: two empty options,
      the first one correct. */
  const BlankQuestion := FormQuestion("", "", [FormOption("", true), FormOption("", false)])

  /** The form's initial state. */
  const InitialForm := Form("", "", "", "", [BlankQuestion])

  /** Option `c` is the one and only option marked correct. */
  ghost predicate OnlyCorrectAt(opts: seq<FormOption>, c: int) {
    0 <= c < |opts| && forall j :: 0 <= j < |opts| ==> (opts[j].isCorrect <==> j == c)
  }

  /** Exactly one option is marked correct. */
  ghost predicate OneCorrect(opts: seq<FormOption>) {
    exists c :: OnlyCorrectAt(opts, c)
  }

  /** The invariant of every form state: at least one question, and every question has at
      least two options, exactly one of them correct. */
  ghost predicate Invariant(f: Form) {
    && |f.questions| >= 1
    && forall i :: 0 <= i < |f.questions| ==>
         |f.questions[i].options| >= 2 && OneCorrect(f.questions[i].options)
  }

  lemma InitialFormHolds()
    ensures Invariant(InitialForm)
  {
    assert OnlyCorrectAt(BlankQuestion.options, 0);
  }

  datatype FormField = NameField | DescriptionField | TopicField | TagsField

  function FieldValue(f: Form, field: FormField): string {
    match field
    case NameField => f.name
    case DescriptionField => f.description
    case TopicField => f.topic
    case TagsField => f.tags
  }

  /** `handleChange`: sets one top-level text field. */
  function HandleChange(f: Form, field: FormField, value: string): (r: Form)
    ensures FieldValue(r, field) == value
    ensures forall other :: other != field ==> FieldValue(r, other) == FieldValue(f, other)
    ensures r.questions == f.questions
  {
    match field
    case NameField => f.(name := value)
    case DescriptionField => f.(description := value)
    case TopicField => f.(topic := value)
    case TagsField => f.(tags := value)
  }

  datatype QuestionField = QuestionText | QuestionReview

  function QuestionFieldValue(q: FormQuestion, field: QuestionField): string {
    match field
    case QuestionText => q.text
    case QuestionReview => q.review
  }

  /** `handleQuestionChange(index, field, value)`: sets one field of one question (an index
      with no question throws in the source). */
  function HandleQuestionChange(f: Form, index: nat, field: QuestionField, value: string): (r: Form)
    requires index < |f.questions|
    ensures |r.questions| == |f.questions|
    ensures forall i :: 0 <= i < |f.questions| && i != index ==> r.questions[i] == f.questions[i]
    ensures QuestionFieldValue(r.questions[index], field) == value
    ensures forall other :: other != field ==>
              QuestionFieldValue(r.questions[index], other) == QuestionFieldValue(f.questions[index], other)
    ensures r.questions[index].options == f.questions[index].options
    ensures r.(questions := f.questions) == f
  {
    var q := f.questions[index];
    var q' := match field
      case QuestionText => q.(text := value)
      case QuestionReview => q.(review := value);
    f.(questions := f.questions[index := q'])
  }

  datatype OptionField = OptionText | OptionIsCorrect

  /** `handleOptionChange(qIdx, oIdx, field, value)`. For "isCorrect" every option's flag
      becomes `i === oIdx` and `value` is ignored; otherwise option `oIdx` gets the text
      (an option index with no option throws there, so it is required). */
  function HandleOptionChange(f: Form, qIdx: nat, oIdx: nat, field: OptionField, value: string): (r: Form)
    requires qIdx < |f.questions|
    requires field == OptionText ==> oIdx < |f.questions[qIdx].options|
    ensures |r.questions| == |f.questions|
    ensures forall i :: 0 <= i < |f.questions| && i != qIdx ==> r.questions[i] == f.questions[i]
    ensures r.(questions := f.questions) == f
    ensures var q, q' := f.questions[qIdx], r.questions[qIdx];
            && q'.text == q.text && q'.review == q.review
            && |q'.options| == |q.options|
            && (field == OptionIsCorrect ==>
                  forall j :: 0 <= j < |q.options| ==>
                    q'.options[j].text == q.options[j].text && (q'.options[j].isCorrect <==> j == oIdx))
            && (field == OptionText ==>
                  && q'.options[oIdx].text == value
                  && forall j :: 0 <= j < |q.options| ==>
                       q'.options[j].isCorrect == q.options[j].isCorrect
                       && (j != oIdx ==> q'.options[j].text == q.options[j].text))
  {
    var q := f.questions[qIdx];
    var opts := match field
      case OptionIsCorrect =>
        seq(|q.options|, j requires 0 <= j < |q.options| => q.options[j].(isCorrect := j == oIdx))
      case OptionText => q.options[oIdx := q.options[oIdx].(text := value)];
    f.(questions := f.questions[qIdx := q.(options := opts)])
  }

  /** `addQuestion`: appends a blank question, leaving the others as they are. */
  function AddQuestion(f: Form): (r: Form)
    ensures |r.questions| == |f.questions| + 1
    ensures r.questions[..|f.questions|] == f.questions
    ensures r.questions[|f.questions|] == BlankQuestion
    ensures r.(questions := f.questions) == f
  {
    f.(questions := f.questions + [BlankQuestion])
  }

  /** `addOption(qIdx)`: appends an empty, not-correct option to question `qIdx`. */
  function AddOption(f: Form, qIdx: nat): (r: Form)
    requires qIdx < |f.questions|
    ensures |r.questions| == |f.questions|
    ensures forall i :: 0 <= i < |f.questions| && i != qIdx ==> r.questions[i] == f.questions[i]
    ensures var q, q' := f.questions[qIdx], r.questions[qIdx];
            && q'.text == q.text && q'.review == q.review
            && |q'.options| == |q.options| + 1
            && q'.options[..|q.options|] == q.options
            && q'.options[|q.options|..] == [FormOption("", false)]
    ensures r.(questions := f.questions) == f
  {
    var q := f.questions[qIdx];
    var opts := q.options + [FormOption("", false)];
    assert opts[..|q.options|] == q.options;
    f.(questions := f.questions[qIdx := q.(options := opts)])
  }

  /** Everything a control of the rendered form can do. */
  datatype Edit =
    | Change(field: FormField, value: string)
    | QuestionChange(index: nat, qfield: QuestionField, text: string)
    | OptionChange(q: nat, o: nat, ofield: OptionField, text: string)
    | NewQuestion
    | NewOption(target: nat)

  /** The form renders controls only for the questions and options it has. */
  predicate Offered(f: Form, e: Edit) {
    match e
    case Change(_, _) => true
    case QuestionChange(index, _, _) => index < |f.questions|
    case OptionChange(q, o, _, _) => q < |f.questions| && o < |f.questions[q].options|
    case NewQuestion => true
    case NewOption(target) => target < |f.questions|
  }

  function Apply(f: Form, e: Edit): Form
    requires Offered(f, e)
  {
    match e
    case Change(field, value) => HandleChange(f, field, value)
    case QuestionChange(index, field, value) => HandleQuestionChange(f, index, field, value)
    case OptionChange(q, o, field, value) => HandleOptionChange(f, q, o, field, value)
    case NewQuestion => AddQuestion(f)
    case NewOption(target) => AddOption(f, target)
  }

  /** The form after a sequence of edits, or `None` if one of them uses a control the
      form does not show at that point. */
  function Replay(f: Form, edits: seq<Edit>): Option<Form>
    decreases |edits|
  {
    if edits == [] then Some(f)
    else if !Offered(f, edits[0]) then None
    else Replay(Apply(f, edits[0]), edits[1..])
  }

  /** Every edit the form offers keeps the invariant. */
  lemma EditKeepsInvariant(f: Form, e: Edit)
    requires Invariant(f) && Offered(f, e)
    ensures Invariant(Apply(f, e))
  {
    var r := Apply(f, e);
    match e {
      case Change(_, _) =>
      case QuestionChange(_, _, _) =>
      case OptionChange(q, o, field, _) =>
        var opts := f.questions[q].options;
        var opts' := r.questions[q].options;
        if field == OptionIsCorrect {
          assert OnlyCorrectAt(opts', o);
        } else {
          var c :| OnlyCorrectAt(opts, c);
          assert OnlyCorrectAt(opts', c);
        }
        assert OneCorrect(opts');
      case NewQuestion =>
        InitialFormHolds();
        assert forall i :: 0 <= i < |f.questions| ==> r.questions[i] == f.questions[i];
      case NewOption(q) =>
        var opts := f.questions[q].options;
        var opts' := r.questions[q].options;
        var c :| OnlyCorrectAt(opts, c);
        assert opts'[|opts|] == FormOption("", false);
        assert forall j :: 0 <= j < |opts| ==> opts'[j] == opts[j];
        assert OnlyCorrectAt(opts', c);
        assert forall i :: 0 <= i < |f.questions| && i != q ==> r.questions[i] == f.questions[i];
    }
  }

  /** Every form reachable from a form that holds the invariant holds it too. */
  lemma {:induction false} ReplayKeepsInvariant(f: Form, edits: seq<Edit>)
    requires Invariant(f)
    ensures Replay(f, edits).Some? ==> Invariant(Replay(f, edits).value)
    decreases |edits|
  {
    if edits != [] && Offered(f, edits[0]) {
      EditKeepsInvariant(f, edits[0]);
      ReplayKeepsInvariant(Apply(f, edits[0]), edits[1..]);
    }
  }

  /** `form.tags.split(",").map((t) => t.trim())`: one tag more than there are commas,
      each the trimmed piece between commas; an empty field gives one empty tag. */
  function SplitTags(tags: string): (r: seq<string>)
    ensures |r| == Occurrences(tags, ',') + 1
    ensures forall i :: 0 <= i < |r| ==> r[i] == Trim(Split(tags, ',')[i])
    ensures tags == "" ==> r == [""]
  {
    var pieces := Split(tags, ',');
    seq(|pieces|, i requires 0 <= i < |pieces| => Trim(pieces[i]))
  }

  function OptionPayload(o: FormOption): Catalog.OptionInput {
    Catalog.OptionInput(o.text, o.isCorrect)
  }

  function QuestionPayload(q: FormQuestion): Catalog.QuestionInput {
    Catalog.QuestionInput(q.text, q.review,
      seq(|q.options|, j requires 0 <= j < |q.options| => OptionPayload(q.options[j])))
  }

  /** The body `handleSubmit` posts to the create endpoint: the form's fields, its tags
      split at commas, and its questions and options field by field, in order. */
  function Payload(f: Form): (p: Catalog.QuizInput)
    ensures p.name == f.name && p.topic == f.topic && p.description == f.description
    ensures p.tags == Some(SplitTags(f.tags))
    ensures p.questions.Some? && |p.questions.value| == |f.questions|
    ensures forall i :: 0 <= i < |f.questions| ==>
      && p.questions.value[i].text == f.questions[i].text
      && p.questions.value[i].review == f.questions[i].review
      && |p.questions.value[i].options| == |f.questions[i].options|
    ensures forall i, j :: 0 <= i < |f.questions| && 0 <= j < |f.questions[i].options| ==>
      && p.questions.value[i].options[j].text == f.questions[i].options[j].text
      && p.questions.value[i].options[j].isCorrect == f.questions[i].options[j].isCorrect
  {
    Catalog.QuizInput(f.name, f.description, f.topic, Some(SplitTags(f.tags)),
      Some(seq(|f.questions|, i requires 0 <= i < |f.questions| => QuestionPayload(f.questions[i]))))
  }

  /** The browser submits only when every `required` input is filled: name, topic, each
      question text and each option text. */
  predicate BrowserAllowsSubmit(f: Form) {
    && f.name != "" && f.topic != ""
    && forall i :: 0 <= i < |f.questions| ==>
         f.questions[i].text != ""
         && forall j :: 0 <= j < |f.questions[i].options| ==> f.questions[i].options[j].text != ""
  }

  /** A question of a form that holds the invariant passes the server's per-question rule. */
  lemma QuestionPasses(q: FormQuestion)
    requires |q.options| >= 2 && OneCorrect(q.options)
    ensures Catalog.WellFormedQuestion(QuestionPayload(q))
  {
    var opts := QuestionPayload(q).options;
    var c :| OnlyCorrectAt(q.options, c);
    assert Catalog.CorrectOnlyAt(opts, c);
    Catalog.ExactlyOneCorrect(opts);
  }

  /** Whatever sequence of edits produced it, the form's payload passes every check of
      `createQuiz` except the presence of name and topic; once the browser lets the form
      be submitted it passes those too, and the quiz is written. */
  lemma ReachableFormIsAccepted(edits: seq<Edit>, db: Catalog.Store.Db, creatorId: nat)
    requires Replay(InitialForm, edits).Some?
    ensures var f := Replay(InitialForm, edits).value;
            && (Catalog.ValidateQuiz(Payload(f)).Ok? <==> f.name != "" && f.topic != "")
            && (BrowserAllowsSubmit(f) ==> Catalog.CreateQuiz(db, Payload(f), creatorId).outcome.Ok?)
  {
    InitialFormHolds();
    ReplayKeepsInvariant(InitialForm, edits);
    var f := Replay(InitialForm, edits).value;
    var qs := Payload(f).questions.value;
    forall i | 0 <= i < |qs|
      ensures Catalog.WellFormedQuestion(qs[i])
    {
      QuestionPasses(f.questions[i]);
    }
  }
}

=== FILE: resultview.dfy ===
/** The pure parts of the result page (client/src/pages/QuizResult.tsx): the three
    per-question chart datasets and the colour each listed option gets. */
module ResultView {
  import opened Outcomes
  import Attempts

  /** The fields of one review entry the page reads; `selectedOption` is `None` for `null`
      and `correctAnswer` is `None` when the entry has no correct answer text. */
  datatype ReviewEntry = ReviewEntry(isCorrect: bool, selectedOption: Option<string>,
                                     correctAnswer: Option<string>, optionTexts: seq<string>)

  /** The entry of the "Correct" dataset for one question. */
  function CorrectBar(e: ReviewEntry): (v: int)
    ensures v == 0 || v == 1
    ensures v == 1 <==> e.isCorrect
  {
    if e.isCorrect then 1 else 0
  }

  /** The entry of the "Incorrect" dataset: `isCorrect || selectedOption === null ? 0 : 1`. */
  function IncorrectBar(e: ReviewEntry): (v: int)
    ensures v == 0 || v == 1
    ensures v == 1 <==> !e.isCorrect && e.selectedOption.Some?
  {
    if e.isCorrect || e.selectedOption.None? then 0 else 1
  }

  /** The entry of the "Unattempted" dataset. */
  function UnattemptedBar(e: ReviewEntry): (v: int)
    ensures v == 0 || v == 1
    ensures v == 1 <==> e.selectedOption.None?
  {
    if e.selectedOption.None? then 1 else 0
  }

  /** An entry never marks a correct answer without a selection. */
  predicate Consistent(e: ReviewEntry) {
    e.isCorrect ==> e.selectedOption.Some?
  }

  /** How a question ought to be counted, defined on its own. */
  datatype Outcome = Right | Wrong | Skipped

  function OutcomeOf(e: ReviewEntry): Outcome {
    if e.selectedOption.None? then Skipped
    else if e.isCorrect then Right
    else Wrong
  }

  /** For a consistent entry, exactly one of the three bars is 1, and it is the bar of the
      entry's outcome. An inconsistent entry (correct but unselected) is drawn twice. */
  lemma BarsAreOneHot(e: ReviewEntry)
    ensures Consistent(e) ==>
              CorrectBar(e) + IncorrectBar(e) + UnattemptedBar(e) == 1
              && (CorrectBar(e) == 1 <==> OutcomeOf(e) == Right)
              && (IncorrectBar(e) == 1 <==> OutcomeOf(e) == Wrong)
              && (UnattemptedBar(e) == 1 <==> OutcomeOf(e) == Skipped)
    ensures !Consistent(e) ==> CorrectBar(e) == 1 && UnattemptedBar(e) == 1 && IncorrectBar(e) == 0
  {
  }

  function Sum(xs: seq<int>): int {
    if xs == [] then 0 else xs[0] + Sum(xs[1..])
  }

  function Column(entries: seq<ReviewEntry>, bar: ReviewEntry -> int): (col: seq<int>)
    ensures |col| == |entries| && forall i :: 0 <= i < |entries| ==> col[i] == bar(entries[i])
  {
    seq(|entries|, i requires 0 <= i < |entries| => bar(entries[i]))
  }

  /** Over a whole result of consistent entries, the three datasets add up to the number
      of questions: every question gets exactly one bar. */
  lemma {:induction false} BarsCoverEveryQuestion(entries: seq<ReviewEntry>)
    requires forall i :: 0 <= i < |entries| ==> Consistent(entries[i])
    ensures Sum(Column(entries, CorrectBar)) + Sum(Column(entries, IncorrectBar))
            + Sum(Column(entries, UnattemptedBar)) == |entries|
  {
    if entries != [] {
      BarsCoverEveryQuestion(entries[1..]);
      BarsAreOneHot(entries[0]);
      assert Column(entries, CorrectBar)[1..] == Column(entries[1..], CorrectBar);
      assert Column(entries, IncorrectBar)[1..] == Column(entries[1..], IncorrectBar);
      assert Column(entries, UnattemptedBar)[1..] == Column(entries[1..], UnattemptedBar);
    }
  }

  /** The class of one listed option. */
  datatype Highlight = Yellow | Green | Red | Neutral

  /** The option colour: everything is yellow for an unattempted question; otherwise the
      option whose text is the correct answer is green, the selected one red when it is not
      the correct answer, and the rest neutral. */
  function OptionHighlight(e: ReviewEntry, text: string): (h: Highlight)
    ensures h == Yellow <==> e.selectedOption.None?
    ensures e.selectedOption.Some? ==>
              (h == Green <==> e.correctAnswer == Some(text))
              && (h == Red <==> e.selectedOption == Some(text) && e.correctAnswer != Some(text))
  {
    var isCorrect := e.correctAnswer == Some(text);
    var isSelected := e.selectedOption == Some(text);
    if e.selectedOption.None? then Yellow
    else if isCorrect then Green
    else if isSelected && !isCorrect then Red
    else Neutral
  }

  /** On an attempted question, some option is red exactly when the selected text is
      listed and differs from the correct answer; a right selection shows no red. */
  lemma RedMarksAWrongSelection(e: ReviewEntry)
    requires e.selectedOption.Some?
    ensures (exists i :: 0 <= i < |e.optionTexts| && OptionHighlight(e, e.optionTexts[i]) == Red)
            <==> e.selectedOption.value in e.optionTexts && e.correctAnswer != e.selectedOption
  {
    if e.selectedOption.value in e.optionTexts && e.correctAnswer != e.selectedOption {
      var i :| 0 <= i < |e.optionTexts| && e.optionTexts[i] == e.selectedOption.value;
      assert OptionHighlight(e, e.optionTexts[i]) == Red;
    }
  }

  /** The page's view of an entry built by the server. */
  function FromServer(e: Attempts.Evaluated): ReviewEntry {
    ReviewEntry(e.isCorrect, Some(e.selectedOption), e.correctAnswer,
                seq(|e.options|, i requires 0 <= i < |e.options| => e.options[i].text))
  }

  /** Entries built by the server always carry the selected option's text, so they are
      consistent, never counted as unattempted and never painted yellow: the Unattempted
      dataset and the yellow style are dead for them. */
  lemma ServerEntriesAreAttempted(entries: seq<Attempts.Evaluated>)
    ensures forall i :: 0 <= i < |entries| ==>
              Consistent(FromServer(entries[i])) && UnattemptedBar(FromServer(entries[i])) == 0
              && OutcomeOf(FromServer(entries[i])) != Skipped
              && forall t :: OptionHighlight(FromServer(entries[i]), t) != Yellow
  {
  }
}

=== FILE: store.dfy ===
/** The relational store behind the server, as immutable tables. Row ids are the
    database's generated identifiers, modelled as naturals drawn from one counter
    (`nextId`), so a newly created row never collides with an existing one. */
module Store {
  import opened Outcomes
  import opened Http

  type Id = nat

  datatype Role = User | Admin

  /** A `User` row; `password` holds the bcrypt hash, never the plaintext. */
  datatype UserRow = UserRow(id: Id, name: string, email: string, password: string, role: Role)

  /** An `Option` row. */
  datatype OptionRow = OptionRow(id: Id, text: string, isCorrect: bool)

  /** A `Question` row with its options; `review` is `null` when none was given. */
  datatype Question = Question(id: Id, text: string, review: Option<string>, options: seq<OptionRow>)

  /** A `Quiz` row with its questions and the names of its tags (tag names are unique). */
  datatype Quiz = Quiz(id: Id, name: string, description: string, topic: string,
                       createdById: Id, questions: seq<Question>, tags: set<string>)

  datatype Status = InProgress | Completed

  /** An `Answer` row of an attempt. */
  datatype StoredAnswer = StoredAnswer(questionId: Id, selectedOptionId: Id)

  /** A `QuizAttempt` row with its answers, in insertion order. */
  datatype Attempt = Attempt(id: Id, userId: Id, quizId: Id, status: Status, score: int,
                             answers: seq<StoredAnswer>)

  /** Attempts are looked up by the pair (user, quiz). */
  datatype AttemptKey = AttemptKey(userId: Id, quizId: Id)

  datatype Db = Db(
    users: seq<UserRow>,
    quizzes: map<Id, Quiz>,
    questions: map<Id, Question>,
    options: map<Id, OptionRow>,
    tags: set<string>,
    attempts: map<AttemptKey, Attempt>,
    nextId: Id)

  /** What a handler leaves behind: the store after it ran and its response or error. */
  datatype Handled<T> = Handled(db: Db, outcome: Result<T, HttpError>)

  /** Every answer points at an existing question and an existing option
      (the foreign keys of the `Answer` table). */
  ghost predicate AnswersResolve(db: Db, answers: seq<StoredAnswer>) {
    forall j :: 0 <= j < |answers| ==>
      answers[j].questionId in db.questions && answers[j].selectedOptionId in db.options
  }

  /** The store's integrity: ids are below the counter, quizzes are keyed by their
      own id, attempts by their own (user, quiz) pair, and foreign keys resolve. */
  ghost predicate Wf(db: Db) {
    && (forall i :: 0 <= i < |db.users| ==> db.users[i].id < db.nextId)
    && (forall k :: k in db.quizzes ==> k < db.nextId && db.quizzes[k].id == k)
    && (forall k :: k in db.questions ==> k < db.nextId)
    && (forall k :: k in db.options ==> k < db.nextId)
    && (forall key :: key in db.attempts ==>
          var a := db.attempts[key];
          && a.id < db.nextId
          && a.userId == key.userId && a.quizId == key.quizId
          && key.quizId in db.quizzes
          && AnswersResolve(db, a.answers))
  }

  /** The unique field a user is looked up by. */
  datatype UserKey = ByEmail(email: string) | ById(id: Id)

  predicate HasKey(u: UserRow, key: UserKey) {
    match key
    case ByEmail(email) => u.email == email
    case ById(id) => u.id == id
  }

  /** `prisma.user.findUnique({ where: ... })` on the email or the id: the first row with
      that key, or none when no row has it. */
  function FindUser(users: seq<UserRow>, key: UserKey): (r: Option<UserRow>)
    ensures r.None? <==> forall i :: 0 <= i < |users| ==> !HasKey(users[i], key)
    ensures r.Some? ==> exists i :: 0 <= i < |users| && users[i] == r.value && HasKey(r.value, key)
                                    && forall j :: 0 <= j < i ==> !HasKey(users[j], key)
  {
    if users == [] then None
    else if HasKey(users[0], key) then Some(users[0])
    else
      var r := FindUser(users[1..], key);
      if r.Some? then
        var i :| 0 <= i < |users[1..]| && users[1..][i] == r.value && HasKey(r.value, key)
                 && forall j :: 0 <= j < i ==> !HasKey(users[1..][j], key);
        assert users[i + 1] == r.value;
        r
      else r
  }
}

=== FILE: text.dfy ===
/** The JavaScript string operations the core relies on: `split` on a one-character
    separator, `trim`, `startsWith`, and the case-insensitive `contains` filter the
    quiz search asks the database for. */
module Text {

  /** The code points `String.prototype.trim` removes: the WhiteSpace and
      LineTerminator characters of ECMAScript (tab, line feed, vertical tab, form feed,
      carriage return, space, the Unicode space separators, U+2028, U+2029, U+FEFF). */
  predicate IsWhitespace(c: char) {
    || c == '\t' || c == '\n' || c == '\U{B}' || c == '\U{C}' || c == '\r' || c == ' '
    || c == '\U{A0}' || c == '\U{1680}' || ('\U{2000}' <= c <= '\U{200A}')
    || c == '\U{2028}' || c == '\U{2029}' || c == '\U{202F}' || c == '\U{205F}'
    || c == '\U{3000}' || c == '\U{FEFF}'
  }

  ghost predicate AllWhitespace(s: string) {
    forall i :: 0 <= i < |s| ==> IsWhitespace(s[i])
  }

  /** No whitespace at either end. */
  ghost predicate Trimmed(s: string) {
    s == [] || (!IsWhitespace(s[0]) && !IsWhitespace(s[|s| - 1]))
  }

  /** Drops the leading whitespace: what is left is a suffix that starts with a non-space. */
  function TrimStart(s: string): (r: string)
    ensures |r| <= |s| && r == s[|s| - |r|..]
    ensures AllWhitespace(s[..|s| - |r|])
    ensures r == [] || !IsWhitespace(r[0])
  {
    if |s| > 0 && IsWhitespace(s[0]) then TrimStart(s[1..]) else s
  }

  /** Drops the trailing whitespace: what is left is a prefix that ends with a non-space. */
  function TrimEnd(s: string): (r: string)
    ensures |r| <= |s| && r == s[..|r|]
    ensures AllWhitespace(s[|r|..])
    ensures r == [] || !IsWhitespace(r[|r| - 1])
  {
    if |s| > 0 && IsWhitespace(s[|s| - 1]) then
      var r := TrimEnd(s[..|s| - 1]);
      assert s[|r|..] == s[..|s| - 1][|r|..] + [s[|s| - 1]];
      r
    else s
  }

  /** `r` sits in `s` at position `i` with only whitespace around it. */
  ghost predicate PaddedAt(s: string, r: string, i: int) {
    && 0 <= i <= |s| - |r|
    && s[i..i + |r|] == r
    && AllWhitespace(s[..i]) && AllWhitespace(s[i + |r|..])
  }

  /** A prefix of a suffix of `s`, with whitespace cut at both ends, sits in `s` padded
      by that whitespace. */
  lemma PaddedInfix(s: string, t: string, r: string)
    requires |t| <= |s| && t == s[|s| - |t|..] && AllWhitespace(s[..|s| - |t|])
    requires |r| <= |t| && r == t[..|r|] && AllWhitespace(t[|r|..])
    ensures PaddedAt(s, r, |s| - |t|)
  {
    var i := |s| - |t|;
    assert forall k :: 0 <= k < |r| ==> s[i..i + |r|][k] == t[k];
    assert forall k :: 0 <= k < |s| - i - |r| ==> s[i + |r|..][k] == t[|r|..][k];
  }

  /** `s.trim()`: the infix of `s` left after removing whitespace from both ends. */
  function Trim(s: string): (r: string)
    ensures Trimmed(r)
    ensures exists i :: PaddedAt(s, r, i)
  {
    var t := TrimStart(s);
    var r := TrimEnd(t);
    PaddedInfix(s, t, r);
    assert r != [] ==> r[0] == t[0];
    r
  }

  /** Trimming changes nothing once there is no whitespace at either end. */
  lemma TrimKeepsTrimmed(s: string)
    requires Trimmed(s)
    ensures Trim(s) == s
  {
  }

  /** `trim` is idempotent. */
  lemma TrimIdempotent(s: string)
    ensures Trim(Trim(s)) == Trim(s)
  {
    TrimKeepsTrimmed(Trim(s));
  }

  /** `s.startsWith(p)`. */
  predicate StartsWith(s: string, p: string) {
    |p| <= |s| && s[..|p|] == p
  }

  /** Number of occurrences of `c` in `s`. */
  function Occurrences(s: string, c: char): nat {
    if s == [] then 0 else (if s[0] == c then 1 else 0) + Occurrences(s[1..], c)
  }

  /** `s.split(sep)` for a one-character separator: one more piece than there are
      separators, no piece holds the separator, and the first piece is the longest
      separator-free prefix. The empty string splits into one empty piece. */
  function Split(s: string, sep: char): (parts: seq<string>)
    ensures |parts| == Occurrences(s, sep) + 1
    ensures forall i :: 0 <= i < |parts| ==> sep !in parts[i]
    ensures |parts[0]| <= |s| && s[..|parts[0]|] == parts[0]
    ensures |parts[0]| == |s| || s[|parts[0]|] == sep
  {
    if s == [] then [""]
    else
      var rest := Split(s[1..], sep);
      if s[0] == sep then [""] + rest
      else [[s[0]] + rest[0]] + rest[1..]
  }

  /** `parts.join(sep)`, the inverse of `Split`. */
  function Join(parts: seq<string>, sep: char): string {
    if |parts| == 0 then ""
    else if |parts| == 1 then parts[0]
    else parts[0] + [sep] + Join(parts[1..], sep)
  }

  /** Splitting and joining back gives the original string. */
  lemma {:induction false} SplitThenJoin(s: string, sep: char)
    ensures Join(Split(s, sep), sep) == s
  {
    if s != [] {
      var rest := Split(s[1..], sep);
      SplitThenJoin(s[1..], sep);
      if s[0] == sep {
        assert Split(s, sep) == [""] + rest;
        assert ([""] + rest)[1..] == rest;
      } else {
        var parts := Split(s, sep);
        assert parts == [[s[0]] + rest[0]] + rest[1..];
        if |rest| == 1 {
          assert s == [s[0]] + s[1..];
        } else {
          assert parts[1..] == rest[1..];
          assert Join(rest, sep) == rest[0] + [sep] + Join(rest[1..], sep);
          assert s == [s[0]] + s[1..];
        }
      }
    }
  }

  /** A string with no separator is a single piece. */
  lemma {:induction false} SplitWithoutSeparator(a: string, sep: char)
    requires sep !in a
    ensures Split(a, sep) == [a]
  {
    if a != [] {
      SplitWithoutSeparator(a[1..], sep);
      assert [a[0]] + a[1..] == a;
    }
  }

  /** A separator-free prefix followed by the separator becomes its own first piece. */
  lemma {:induction false} SplitAfterPiece(a: string, sep: char, b: string)
    requires sep !in a
    ensures Split(a + [sep] + b, sep) == [a] + Split(b, sep)
  {
    var s := a + [sep] + b;
    if a == [] {
      assert s[1..] == b;
    } else {
      assert s[1..] == a[1..] + [sep] + b;
      SplitAfterPiece(a[1..], sep, b);
      assert [a[0]] + a[1..] == a;
    }
  }

  /** Joining separator-free pieces and splitting again gives the pieces back. */
  lemma {:induction false} JoinThenSplit(parts: seq<string>, sep: char)
    requires |parts| >= 1
    requires forall i :: 0 <= i < |parts| ==> sep !in parts[i]
    ensures Split(Join(parts, sep), sep) == parts
  {
    if |parts| == 1 {
      SplitWithoutSeparator(parts[0], sep);
    } else {
      JoinThenSplit(parts[1..], sep);
      SplitAfterPiece(parts[0], sep, Join(parts[1..], sep));
      assert [parts[0]] + parts[1..] == parts;
    }
  }

  /** ASCII lower-casing of one character. */
  function LowerChar(c: char): char {
    if 'A' <= c <= 'Z' then (c as int + 32) as char else c
  }

  /** ASCII lower-casing of a string, character by character. */
  function Lower(s: string): (r: string)
    ensures |r| == |s|
    ensures forall i :: 0 <= i < |s| ==> r[i] == LowerChar(s[i])
  {
    seq(|s|, i requires 0 <= i < |s| => LowerChar(s[i]))
  }

  /** `t` occurs in `s` starting at position `i`. */
  predicate OccursAt(t: string, s: string, i: int) {
    0 <= i <= |s| - |t| && s[i..i + |t|] == t
  }

  /** `t` occurs in `s` at some position. */
  ghost predicate IsInfix(t: string, s: string) {
    exists i :: OccursAt(t, s, i)
  }

  /** Substring search: true exactly when `t` occurs somewhere in `s`. */
  function Contains(s: string, t: string): (b: bool)
    ensures b <==> IsInfix(t, s)
    decreases |s|
  {
    if |t| > |s| then false
    else if s[..|t|] == t then
      assert OccursAt(t, s, 0);
      true
    else
      var b := Contains(s[1..], t);
      InfixOfTail(s, t);
      b
  }

  /** Helper for `Contains`: when `t` is not a prefix of `s`, it occurs in `s`
      exactly when it occurs in `s[1..]`. */
  lemma InfixOfTail(s: string, t: string)
    requires |t| <= |s| && s[..|t|] != t
    ensures IsInfix(t, s) <==> IsInfix(t, s[1..])
  {
    if IsInfix(t, s) {
      var i :| OccursAt(t, s, i);
      assert i != 0;
      assert s[1..][i - 1..i - 1 + |t|] == t;
      assert OccursAt(t, s[1..], i - 1);
    }
    if IsInfix(t, s[1..]) {
      var i :| OccursAt(t, s[1..], i);
      assert s[i + 1..i + 1 + |t|] == t;
      assert OccursAt(t, s, i + 1);
    }
  }

  /** Case-insensitive `contains` (ASCII letters only). */
  function ContainsIgnoringCase(s: string, t: string): (b: bool)
    ensures b <==> IsInfix(Lower(t), Lower(s))
  {
    Contains(Lower(s), Lower(t))
  }
}
